=== FILE: README.md ===
# Coup rule engine, modelled in Dafny

This project models the rule engine of slack-coup (`engine.py`). That engine referees
the card game Coup for players in a chat room. It covers:

- the five roles, dealt three copies each;
- players' hands and money;
- the turn rotation among players who may already be out;
- the action / challenge / block state machine that settles every move.

Every verb of the engine is a pure Dafny function. It takes a game state and returns
either the next state or the `Misplay` the source raises. The source makes all of its
checks before it changes anything, so a refused move leaves the state unchanged.

Five places where the source evidently goes wrong are listed under "## Findings". Each
is modelled twice: once as written and once as intended. The verbs (`TakeAction`,
`PoseChallenge`, `ResolveChallenge`, `LoseChallenge`, `KeepCards`, `LoseCard`, and so
on) are built from the intended halves, so where a finding applies they do what the
engine evidently means to do, not what it does. "## Left out" lists exactly which
corrections they embed.

**How the state is represented.** The source keeps its players as a list rotated so
that the next player comes first. The model keeps a fixed seating `seats` and the seat
`turn` now at the head; `Order(g)` is the source's list. The source only ever rotates
that list, so this is exact. The deck is `unused_cards`. A shuffle is a function
parameter that is only known to permute its input (`IsShuffle`).

**The invariant.** `State.Consistent` is what every reachable state satisfies:

- usernames are distinct;
- somebody still holds a live card, and the head of the rotation is such a player;
- READY holds exactly when no action is pending;
- a pending targeted action names a player at the table;
- every stage that needs a claim, a challenger or a block has one on record;
- the deck holds only live cards;
- during an exchange the actor holds at least three live cards.

Every verb is shown to keep this invariant. Every verb except `keep_cards` is also
shown to keep the number of cards in the game (`CardTotal`: deck plus all hands), which
is 15 at the deal.

**Other behaviour of the source that the model keeps:**

- Anybody may challenge, the actor included: `pose_challenge` has no such check, only
  the TODO at engine.py:379.
- `create` does not check that names are distinct or that the number of players is
  supported. `Setup.Create` only asks for what `create` needs in order not to fail: at
  most seven players, so that fifteen cards suffice.
- Distinct usernames are part of `State.Consistent`, and every verb requires
  `Consistent`. So the model covers only games whose cleaned names are distinct, although
  `create` accepts duplicates (see "## Left out").
- A blocked assassination that nobody challenges waits for good. `take_action` refuses
  while an assassination is pending, and `lose_card` refuses in BLOCKED, so only a
  challenge of the block moves the game on (`Findings.BlockedAssassinationWaits`).
- A player who is out may challenge: `pose_challenge` (engine.py:377-388) does not look
  at the challenger's cards. If the claim is true, the challenger owes a card they do not
  have, and the game cannot leave CHALLENGE_LOST (`Findings.OutChallengerIsStuck`).
- A challengee whose claim or block is refuted keeps the shown card live. The source's
  message says the card was flipped over (engine.py:448), but only `_flip_card` flips,
  and `_resolve_challenge` does not call it on that path (engine.py:462-464, 476-480).

## Model

| member | source | states |
|---|---|---|
| Seqs.Rotation | engine.py:319-321 | Rotating by `k` moves the first `k` players to the back and keeps the order of the rest |
| Seqs.RotationOfRotation | engine.py:319-321 | Repeated rotations of the player list are again a rotation of it |
| Cards.Triple | engine.py:245-246 | Three live copies of one role and no other card |
| Cards.Pool | engine.py:6-13 | The pool dealt by `create` has 15 cards, all live, three of each of the five roles |
| Cards.ParseAction | engine.py:17-34 | A word names an action exactly when it is one of the sixteen aliases |
| Cards.ParseActionName | engine.py:17-36 | Every canonical action name is an alias that maps back to that action |
| Players.FindLiveCard | engine.py:117-121 | `find_live_card` finds the first live card of the role, and finds nothing exactly when the hand has no live card of that role |
| Players.FirstLiveCard | engine.py:111-112 | `live_cards()[0]` exists exactly when the hand has a live card; it is live and every card before it is flipped |
| Players.RemoveCard | engine.py:123-128 | `remove_card` fails exactly when no live card of the role is held; otherwise the hand has one card fewer and one live card fewer |
| Players.RemoveCardTakesOne | engine.py:123-128 | What `remove_card` deletes is exactly one live card of the role named, and nothing else |
| Players.LiveCountPositive | engine.py:130-134 | A player is out exactly when no card in the hand is live |
| Players.FlipAtLiveCount | engine.py:356-357 | Flipping a live card keeps the size of the hand and every card's role, and removes exactly one live card |
| State.SeatOf | engine.py:171-175 | `get_player` finds a seat holding the username exactly when one exists |
| State.SeatOfOwnName | engine.py:171-175 | With distinct usernames, looking up a player's own name finds that player |
| State.FirstLive | engine.py:168-169 | The first live player, with every earlier player out; nothing is found only when everyone is out |
| State.LastLive | engine.py:180-181 | The last live player, with every later player out; nothing is found only when everyone is out |
| State.LastLiveIs | engine.py:180-181 | A live player with only out players after it is the one `last_player()` finds |
| State.FirstLiveCongruent | engine.py:168-169 | The search for the first live player depends only on who is live |
| State.LastLiveCongruent | engine.py:180-181 | The search for the last live player depends only on who is live |
| State.SeatOfCongruent | engine.py:171-175 | The name lookup depends only on the names |
| State.LiveOffset | engine.py:320-321 | How many out players the rotation loop skips; the player it stops on is live when anybody is |
| State.RotationHasLive | engine.py:319-321 | Rotating the table neither adds nor removes live players |
| State.FirstLiveFrom | engine.py:359-360 | The loop that rotates past out players stops `k` places after `from`, and every seat it passed is out. It stops on a live seat when anybody is live |
| State.NextSeat | engine.py:177-178 | `next_player()` is a live player whenever anybody is live |
| State.NextSeatIsHead | engine.py:177-178 | When the head of the rotation is live, it is the next player |
| State.LastSeat | engine.py:180-181 | `last_player()` is a live player whenever anybody is live, and it is the last one: every player after it in rotation order is out |
| State.Remaining | engine.py:168-169 | `remaining_players()` keeps only live players from the list |
| State.RemainingEmpty | engine.py:168-169 | Nobody remains exactly when every player is out |
| State.RemainingOnly | engine.py:168-169 | When exactly one player is live, that player is all that remains |
| State.RemainingOneWitness | engine.py:189-193 | When exactly one player remains, exactly one entry of the list is live |
| State.WinnerIsOnlyLive | engine.py:189-193 | `winner()` names somebody exactly when one player alone holds a live card, and then it names that player |
| State.Names | engine.py:183-184 | The usernames of a player list, in the list's order. `player_usernames()` is `Names(Order(g))`, so it lists the table in rotation order starting from the next player |
| State.NamesRotation | engine.py:183-184 | Taking the names commutes with rotating the table |
| State.AdvanceTailOut | engine.py:319-321 | Every seat the turn advance skips lies after the actor in the new rotation, and it is out |
| State.AdvanceKeepsActorLast | engine.py:319-321 | After the turn advance the actor is the last live player, which is why `last_player()` names whoever took the pending action |
| State.TurnChangeIsRotation | engine.py:319-321 | Moving the head to another seat only rotates the source's player list |
| State.TableChangeKeepsConsistent | engine.py:140-166 | A change to hands, turn or deck that keeps the names, a live head and a live deck keeps the invariant |
| State.HandChangeKeepsConsistent | engine.py:140-166 | Giving one seat a new hand that still holds a live card keeps the invariant |
| State.RestageKeepsConsistent | engine.py:140-166 | Moving the same pending action to another stage keeps the invariant when the new stage has what it needs on record |
| State.DrawnKeepsConsistent | engine.py:520 | Marking an exchange's cards as drawn keeps the invariant once the actor holds three live cards |
| Engine.ShuffleLength | engine.py:371 | A shuffle keeps the length of the deck and which cards are in it |
| Engine.ClearAction | engine.py:302-308 | `_clear_action`, as intended: nothing is left of the pending action, and seats, deck and turn are unchanged |
| Engine.ClearKeepsConsistent | engine.py:302-308 | Clearing the pending action keeps the invariant |
| Engine.Credit | engine.py:294 | Adding to one seat's money changes that seat's money by the amount, changes no other seat, and changes the total by the amount |
| Engine.MoneyOnlyKeepsConsistent | engine.py:293-296 | A change to money alone keeps the invariant and keeps every card |
| Engine.PayPending | engine.py:293-296 | The actor gains the action's gain, less 2 if it is its own steal's target. A steal's other target loses 2. Every other seat is unchanged. The money on the table grows by the gain, less 2 for a steal |
| Engine.FlushAction | engine.py:288-300 | `_flush_action` changes nothing when nothing is pending. Otherwise it pays the gain to `last_player()`, takes 2 from a steal's target, clears the record, and keeps every hand |
| Engine.FlushKeepsConsistent | engine.py:288-300 | Completing the pending action keeps the invariant |
| Engine.Settle | engine.py:283 | What a new turn does with the previous action, as intended: a blocked action is dropped unpaid and anything else is paid as owed. The result is READY, consistent, and keeps every card |
| Engine.PassTurn | engine.py:318-321 | The turn advance only rotates the list, leaves a live player at its head, and leaves the actor as `last_player()` |
| Engine.ActedConsistent | engine.py:310-313 | A freshly recorded action on a consistent table is consistent |
| Engine.BeginAction | engine.py:310-321 | `_begin_action` records the action and target with status ACTED and charges its cost to the player who was next. No other seat or hand changes, and the actor becomes `last_player()` |
| Engine.BeginActionKeepsTable | engine.py:310-321 | Beginning an action keeps the invariant and every card, and only rotates the order of play |
| Engine.FlipInSeats | engine.py:356-357 | A flip changes only the one card of the one seat |
| Engine.FlipLeavesLive | engine.py:356-360 | Somebody is still live after a flip exactly when the flipping seat keeps a live card or another seat has one |
| Engine.FlipCard | engine.py:356-366 | `_flip_card` eliminates exactly the card named. The new head is the first live seat from the old head on, so a head that stays live stays. It fails exactly when no live card would be left, which is when the source's loop never ends |
| Engine.FlipKeepsConsistent | engine.py:356-366 | A flip keeps the invariant and every card, and takes exactly one live card from the seat |
| Engine.RedealCard | engine.py:368-373 | `_redeal_card` keeps the rest of the hand in order, with the shown card removed and one card dealt at the end. It keeps the deck size, the seat's money, and every other seat |
| Engine.RedealSwapsShown | engine.py:368-373 | The deck gains the shown card and loses exactly the card dealt in its place |
| Engine.DrawLast | engine.py:370-372 | The shuffled deck with the shown card in it splits into the card drawn and the rest, which together are the old deck plus the shown card |
| Engine.RedealConserves | engine.py:368-373 | A redeal moves cards between the seat and the deck and loses or invents none |
| Engine.RedealHand | engine.py:368-373 | From a deck of live cards the new card is live: the seat keeps its live count and the deck stays live |
| Engine.RedealKeepsConsistent | engine.py:368-373 | A redeal keeps the invariant, every card, and the seat's live count |
| Engine.Challengee | engine.py:439-443 | `_challengee`, as intended: the actor (`last_player()`) for a challenged claim, otherwise the seat of the recorded blocker |
| Engine.ChallengeeAsWritten | engine.py:439-443 | `_challengee` as written: for a challenged claim, the last entry of the rotation, whether or not that player is out |
| Engine.CoupAutoFlip | engine.py:342-345 | The coup's one-card target is flipped and out, nobody's money moves, and, as intended, the coup is closed. It fails exactly when that card is the last live card anywhere |
| Engine.CoupAutoFlipAsWritten | engine.py:342-345 | As written, the target is flipped and out but the status and pending action stay as they were |
| Engine.MaybeAutoresolve | engine.py:336-352 | As intended: income always completes, and a coup on a one-card target completes and is closed. Other actions that take no card and no exchange complete once their block is defeated, or once a failed challenge leaves them unblockable. Anything else is left as it is |
| Engine.CoupAutoFlipKeepsConsistent | engine.py:342-345 | The coup auto-flip keeps the invariant, every card and every name |
| Engine.AutoresolveKeepsConsistent | engine.py:336-352 | Auto-resolution keeps the invariant, every card and every name |
| Engine.TargetName | engine.py:312 | The recorded target is present exactly when a target was given, and it names a player at the table |
| Engine.Refusal | engine.py:255-279 | `take_action` refuses with the first failing check, in the source's order. It refuses nothing exactly when every check passes |
| Engine.Perform | engine.py:281-286 | An admitted action, with the previous one settled as intended, fails only as a coup whose flip would leave nobody live |
| Engine.TakeAction | engine.py:255-286 | A refusal returns that `Misplay` and changes nothing. An accepted call passed every check and is the admitted action performed, with the previous action settled as intended |
| Engine.SettleBeginKeepsTable | engine.py:283-284 | Settling and beginning keep the invariant, every card and every name, and leave the action ACTED |
| Engine.PerformKeepsTable | engine.py:281-286 | A performed action keeps the invariant and every card, and the new player list is a rotation of the old one |
| Engine.AutoresolveBegun | engine.py:336-345 | Straight after an action begins, income pays 1 to the actor and completes, and a landing coup completes with no money moved. Anything else is unchanged |
| Engine.IncomeFlushed | engine.py:338-340 | Completing income pays the actor 1 and nobody else anything |
| Engine.PerformCharges | engine.py:283-285 | Each seat ends with what the previous action owed it. The actor also pays the new cost at once, and gains 1 at once for income |
| Engine.PerformRecords | engine.py:310-313 | Income and a landing coup leave nothing pending; any other action waits as ACTED with the action and its target recorded |
| Engine.TakeActionKeepsTable | engine.py:255-286 | An accepted `take_action` keeps the invariant and every card; the player list is a rotation of the old one with a live head |
| Engine.TakeActionFunded | engine.py:270-272 | The actor's money is what they were owed less the cost. It can only end below zero when the action before was an unblocked steal from the actor, because the funds check comes before that steal is paid out |
| Engine.OwedNonNegative | engine.py:293-296 | Only the target of a pending steal can be owed a negative amount |
| CardLoss.LoseCardIn | engine.py:549-563 | `lose_card` refuses with the source's messages in the source's order. Otherwise it flips one live card of the target, clears to READY, keeps the invariant and every card, and fails only on the last live card |
| CardLoss.LoseCardAsWritten | engine.py:555-557 | As written, `lose_card` is refused in BLOCK_CHALLENGE_WON |
| CardLoss.LoseCard | engine.py:549-563 | As intended, `lose_card` also accepts BLOCK_CHALLENGE_WON, and agrees with the source wherever the source accepts |
| CardLoss.LoseCardOutcome | engine.py:558-563 | A card loss flips exactly one live card of the role named, moves no money, changes no other seat and no deck, and ends in READY |
| CardLoss.FlipCopies | engine.py:356-357 | Flipping a card takes one live copy of its role out of the hand |
| Challenges.ChallengerSeat | engine.py:413 | The recorded challenger's seat holds that username |
| Challenges.ConcedeChallenge | engine.py:423-437 | Conceding a card fails only as an endless rotation and keeps the number of seats |
| Challenges.ClaimGoesOn | engine.py:424-432 | After a true claim the action waits in CHALLENGE_LOSS_RESOLVED, except a tax, which completes. Hands do not change |
| Challenges.ClaimGoesOnKeepsTable | engine.py:424-432 | Going on after a lost challenge keeps the invariant, every card and every name |
| Challenges.Redealt | engine.py:452-469 | A true claim or block moves to CHALLENGE_LOST or BLOCK_CHALLENGE_LOST, with the action, challenger, turn and names unchanged |
| Challenges.RedealtIsRedeal | engine.py:452-469 | Apart from the stage, the lost challenge is exactly the redeal of the shown card |
| Challenges.RedealtKeepsTable | engine.py:452-469 | The redeal after a true claim or block keeps the invariant, every card and every player's live count |
| Challenges.Uphold | engine.py:453-461 | Upholding fails only as an endless rotation and keeps the number of seats |
| Challenges.Reveal | engine.py:445-480 | Showing a card fails only as an endless rotation and keeps the number of seats |
| Challenges.PoseChallenge | engine.py:377-399 | `pose_challenge`, with the intended challengee: refused unless the status is ACTED with a role-claiming action, or BLOCKED. Otherwise it fails only as an endless rotation |
| Challenges.Confront | engine.py:389-399 | Putting the challenge to the intended challengee fails only as an endless rotation |
| Challenges.ResolveChallenge | engine.py:401-410 | `resolve_challenge`, with the intended challengee: refused unless the caller is the challengee in a challenge stage. It then reports a missing card exactly when the hand lacks a live one of the role |
| Challenges.LoseChallenge | engine.py:412-421 | `lose_challenge` is refused unless the caller is the challenger in a stage that lost. It then reports a missing card exactly when the hand lacks a live one of the role |
| Challenges.ConcedeFailsExactly | engine.py:423 | Conceding fails exactly when the challenger's card is the last live card anywhere |
| Challenges.ConcedeCosts | engine.py:423-437 | The challenger loses exactly one live card, and no money moves unless a tax completes |
| Challenges.ConcedeSeats | engine.py:423-437 | After a concession every hand is as the flip left it, and unless a tax completes so is every seat |
| Challenges.ConcedeOutcome | engine.py:424-437 | A lost challenge of a block clears to READY, and so does a lost challenge of a tax claim. Any other lost challenge waits in CHALLENGE_LOSS_RESOLVED |
| Challenges.ConcedeKeepsTable | engine.py:423-437 | Conceding keeps the invariant, every card and every name |
| Challenges.FlippedKeepsTable | engine.py:423 | The challenger's flip keeps the invariant, the stage, every card and every name |
| Challenges.ClaimAfterFlipKeepsTable | engine.py:424-432 | Going on after the flip keeps the invariant, every card and every name |
| Challenges.RevealRefutesClaim | engine.py:462-465 | A card that does not back a challenged claim clears the action unpaid; no card moves |
| Challenges.RevealRefutesBlock | engine.py:476-480 | A card that does not back a challenged block defeats the block. A steal or foreign aid then completes; an assassination waits in BLOCK_CHALLENGE_WON |
| Challenges.UpholdOutcome | engine.py:452-475 | A card that backs the claim or block moves to CHALLENGE_LOST or BLOCK_CHALLENGE_LOST: with more than one live card the challenger waits, and the result is exactly the challengee's redeal. A challenger with one card loses it at once and is out. A lost block challenge then clears the action; a lost claim challenge completes it or waits in CHALLENGE_LOSS_RESOLVED |
| Challenges.UpholdKeepsTable | engine.py:452-475 | Upholding keeps the invariant, every card and every name |
| Challenges.RevealKeepsTable | engine.py:445-480 | Showing a card keeps the invariant, every card and every name |
| Challenges.ConfrontOutcome | engine.py:393-399 | A challengee with more than one live card is asked to choose, and nothing changes. One with a single live card shows it at once and the stage moves on |
| Challenges.ConfrontKeepsTable | engine.py:393-399 | Deciding a challenge on record keeps the invariant, every card and every name |
| Challenges.PoseChallengeConfronts | engine.py:380-399 | An accepted challenge is the consistent state that records the stage and the challenger, put to the challengee |
| Challenges.PoseChallengeOutcome | engine.py:380-399 | A challenge is accepted only from ACTED or BLOCKED. It is recorded with its challenger, unless the challengee has one live card and the stage moves on at once |
| Challenges.PoseChallengeKeepsTable | engine.py:377-399 | A posed challenge keeps the invariant, every card and every name |
| Challenges.ResolveChallengeKeepsTable | engine.py:401-410 | Showing a card keeps the invariant, every card and every name |
| Challenges.LoseChallengeKeepsTable | engine.py:412-437 | Giving up a card after a lost challenge keeps the invariant and every card, and takes exactly one live card from the challenger |
| Blocks.PoseBlock | engine.py:484-507 | `pose_block` accepts exactly when every check passes and refuses with the source's messages in order. A block records only who blocked and with what |
| Blocks.PoseBlockKeepsTable | engine.py:484-507 | A block keeps the invariant and every card |
| Exchange.DrawTwo | engine.py:521-524 | Drawing keeps the hand in order and adds the deck's last two cards, which leave the deck |
| Exchange.DrawTwoLive | engine.py:521-524 | Cards drawn from a live deck add two live cards |
| Exchange.DiscardTwo | engine.py:542-543 | Exactly one live card of each role named leaves the hand, and the hand has two cards fewer and two live cards fewer |
| Exchange.TakeCards | engine.py:511-526 | `take_cards` refuses with the source's messages in order. Otherwise it moves to CARDS_TAKEN and the actor's hand gains the two cards from the end of the shuffled deck |
| Exchange.TakeCardsKeepsTable | engine.py:511-526 | Drawing keeps the invariant and every card, and gives the actor two more live cards |
| Exchange.KeepCards | engine.py:528-545 | `keep_cards` makes every check first, refusing in the source's order. Otherwise it removes the two named live cards, leaves the deck as it is and clears to READY |
| Exchange.KeepCardsKeepsTable | engine.py:528-545 | Returning cards keeps the invariant; as written, the game then holds two cards fewer |
| Setup.StripAtSuffix | engine.py:248 | `lstrip('@')` keeps the longest suffix that does not begin with '@', and cuts off only '@' |
| Setup.StripAtIdempotent | engine.py:248 | Stripping twice is stripping once |
| Setup.StripAtMention | engine.py:248 | `@name` and `name` give the same player |
| Setup.Deal | engine.py:248-250 | Dealing gives every name a player and leaves the front of the deck |
| Setup.DealAt | engine.py:248-250 | Player `i` has the cleaned name, 2 coins, and the cards at positions n-1-2i and n-2-2i, the first popped first |
| Setup.DealConserves | engine.py:248-250 | Dealing moves cards from the deck into hands and loses none |
| Setup.DealHandTotal | engine.py:248-250 | Each player is dealt two cards |
| Setup.Create | engine.py:244-251 | A new game is READY with nothing pending and the first player to move. Every player has the cleaned name, 2 coins and 2 live cards, and the deck holds the rest of the pool, all live |
| Setup.CreateHoldsPool | engine.py:244-251 | A new game holds exactly the pool of 15 cards between deck and hands |
| Setup.CreateConsistent | engine.py:244-251 | A new game with distinct cleaned names satisfies the invariant |
| Findings.NoActionWhenWaiting | engine.py:259-264 | No action starts while the pending action still waits for an answer |
| Findings.NoChallengeOutside | engine.py:380-387 | Nothing is challenged, shown or conceded outside the challenge stages |
| Findings.NoBlockOutside | engine.py:486-489 | Nothing is blocked outside the blocking stages or when the action has no counter |
| Findings.NoExchangeOutside | engine.py:514-515 | Neither exchange step is accepted when no exchange is pending |
| Findings.OutHoldsNone | engine.py:130-131 | A player who is out holds no live card of any role |
| Findings.CoupAutoFlipAsWrittenLeavesCoup | engine.py:342-345 | As written, the auto-flip knocks the target out and leaves the coup pending |
| Findings.CoupLeftPendingIsStuck | engine.py:259-264 | A coup left pending on a player who is out refuses every call of every verb |
| Findings.CoupAutoFlipCloses | engine.py:342-345 | As intended, the auto-flip closes the coup and the next turn can start |
| Findings.AssassinationUnblockedIsStuck | engine.py:555-557 | As written, an assassination whose block was refuted refuses every call of every verb |
| Findings.AssassinationUnblockedIsPaid | engine.py:549-563 | As intended, the target then pays with any live card, unless it is the last live card in the game |
| Findings.BlockedAssassinationWaits | engine.py:259-262 | A blocked assassination refuses every new action, block, exchange and card loss, while a challenge of the block is accepted |
| Findings.BlockedAidStillPaid | engine.py:259-262 | A new turn may start over blocked foreign aid, and `_flush_action` then pays its 2 coins; settling as intended pays nothing |
| Findings.ClearActionAsWritten | engine.py:302-308 | As written, clearing leaves the challenger on record |
| Findings.ClearForgets | engine.py:302-308 | The corrected clear forgets the whole action; the one as written does so exactly when nobody had challenged |
| Findings.OutBetween | engine.py:439-441 | A three-seat table where the seat between the actor and the next player is out |
| Findings.ChallengeeAsWrittenPicksOut | engine.py:439-441 | There, as written, the challenge goes to the player who is out, while the corrected lookup names the live actor |
| Findings.ChallengeeIsLive | engine.py:439-441 | The corrected lookup names a live player whenever a claim is challenged |
| Findings.StealOverdraws | engine.py:295-296 | Completing a steal takes 2 from a target holding fewer than 2, leaving them below zero |
| Findings.OverdrawnCannotAct | engine.py:270-272 | A next player below zero fails the funds check of every action, income included, so `take_action` accepts nothing |
| Findings.OverdrawnIsStuck | engine.py:270-272 | A READY game whose next player is below zero refuses every verb |
| Findings.OutChallengerIsStuck | engine.py:377-388 | A challenger who is out and has lost the challenge can concede no card, and every verb refuses that stage |

## Left out

- Text: messages, `view`, `status_line`, `status_view`, `mention` and `_join_messages` only format strings. A `Misplay` is a constructor, not a message.
- Persistence: `ndb`, `put` and `last_timestamp` store the state and do not decide anything.
- `coup.py` is not part of this model. It holds request handling, command routing and the per-room transaction, so each verb here is one atomic step.
- `random.shuffle` is a parameter known only to permute the deck. Which permutation it picks is left open.
- Crash paths become preconditions:
  - popping from a deck of fewer than two cards in `take_cards`;
  - more than seven players in `create`;
  - `lose_challenge` with no recorded challenger.
- EndlessRotation: flipping the last live card in the game makes the source's rotation loop (engine.py:359-360) run for ever. The model returns `EndlessRotation` instead.
- Broken calls, modelled as the calls they evidently mean:
  - engine.py:394-395 passes an extra `self` to `_resolve_challenge`, which would raise a TypeError. The model reveals the card.
  - engine.py:458-459 and engine.py:472-473 pass a `Card` where `lose_challenge` expects a role name, so the lookup cannot find it. The model concedes that card.
  - engine.py:469 passes a `Card` to `_redeal_card`, so `remove_card` cannot find it. The model redeals the role shown.
- Engine.TakeAction / Engine.Perform / Engine.MaybeAutoresolve: the verbs embed the intended halves of four findings, not the source as written:
  - a BLOCKED action is dropped unpaid (`Engine.Settle`), where engine.py:283 pays it;
  - a coup on a one-card target is closed after the flip (`Engine.CoupAutoFlip`), where engine.py:342-345 leaves it pending;
  - challenges go to the intended challengee (`Engine.Challengee`: the actor or the blocker), where engine.py:441 takes `players[-1]`;
  - every clear forgets the challenger (`Engine.ClearAction`), where engine.py:305 leaves it set.
  The as-written halves are `Findings.BlockedAidStillPaid`, `Engine.CoupAutoFlipAsWritten`, `Engine.ChallengeeAsWritten` and `Findings.ClearActionAsWritten`.
- Duplicate usernames: `create` (engine.py:248) accepts them, and `get_player` (engine.py:171-175) then only ever finds the first player of a name. `State.Consistent` requires distinct names, so no verb is modelled on such a game.
- Exchange.KeepCards: models `keep_cards` as written. The two named cards are removed and discarded, not returned to the deck, so no card conservation is claimed across it.
- Engine.FlushAction: models the unguarded steal debit as written, so money may go negative (`Findings.StealOverdraws`, `Engine.TakeActionFunded`). A player below zero then fails the funds check even for income, and the game stops at their turn (`Findings.OverdrawnCannotAct`, `Findings.OverdrawnIsStuck`). No corrected debit is modelled.
- Role names: `pose_block`, `resolve_challenge`, `lose_challenge`, `keep_cards` and `lose_card` take any string, while the model takes a `CardName`. A string that is not a role only reaches refusals the model already has: "can't block with" (engine.py:498-500) and "don't have that card" (engine.py:407-408, 420-421, 540-541, 559-560).

## Findings

| source | as written | input that shows it | evidently intended | confidence | as-written member | corrected member |
|---|---|---|---|---|---|---|
| engine.py:342-345 | A coup on a target with one live card flips that card but leaves the coup pending | A coup on a player holding one live card: afterwards every verb is refused | The auto-flip closes the coup, so the next turn can start | high, not executed | Findings.CoupLeftPendingIsStuck | Findings.CoupAutoFlipCloses |
| engine.py:259-262 | A new turn may start while an action stands BLOCKED, and its `_flush_action` pays the blocked action | Foreign aid blocked with a duke, then the next player takes income: the blocked actor gains 2 | A blocked action is dropped unpaid | medium, not executed | Findings.BlockedAidStillPaid | Engine.Settle |
| engine.py:555-557 | `lose_card` does not accept BLOCK_CHALLENGE_WON, where an assassination stands once its block is refuted | An assassination blocked with a contessa, the block challenged, and the blocker shows another role: every verb is refused | The target loses a card | high, not executed | Findings.AssassinationUnblockedIsStuck | Findings.AssassinationUnblockedIsPaid |
| engine.py:305 | `_clear_action` resets `challenge_loser`, so `challenger` stays on record | Any challenged action, once cleared, still names its challenger | Clearing forgets the challenger | high, not executed | Findings.ClearActionAsWritten | Findings.ClearForgets |
| engine.py:441 | `_challengee` returns `players[-1]`, which may be a player who is out | `Findings.OutBetween`: seat a claims a tax, seat b is out, seat c challenges; the challenge goes to b | The challengee is the actor, `last_player()` | high, not executed | Findings.ChallengeeAsWrittenPicksOut | Findings.ChallengeeIsLive |

=== FILE: blocks.dfy ===
/** Blocks (`pose_block`): a player stops the pending action by claiming a role that
    counters it. */
module Blocks {
  import opened Wrappers
  import opened Cards
  import opened Players
  import opened State
  import opened Engine

  /** Every check `pose_block` makes passes: the action is on the table and not yet
      blocked, it can be blocked, the blocker is not the actor, only the target may block
      anything but foreign aid, and the role named counters the action. */
  predicate BlockAllowed(g: GameState, b: nat, name: CardName)
    requires g.turn < |g.seats| && b < |g.seats|
  {
    && (g.status == Acted || g.status == ChallengeLossResolved)
    && g.lastAction.Some?
    && Blockable(g.lastAction.value)
    && b != LastSeat(g)
    && (g.lastAction.value == ForeignAid || g.lastTarget == Some(g.seats[b].username))
    && name in Blockers(g.lastAction.value)
  }

  /** `pose_block`: seat `b` blocks the pending action claiming role `name`. The checks
      are made in this order and all before anything changes. A block records only who
      blocked and with what: anyone, even a player who is out, may block foreign aid. */
  function PoseBlock(g: GameState, b: nat, name: CardName): (r: Result<GameState, Misplay>)
    requires Consistent(g) && b < |g.seats|
    ensures r.Ok? <==> BlockAllowed(g, b, name)
    ensures g.status != Acted && g.status != ChallengeLossResolved ==> r == Err(CannotBlockNow)
    ensures (g.status == Acted || g.status == ChallengeLossResolved) && !Blockable(g.lastAction.value) ==>
      r == Err(Unblockable)
    ensures (g.status == Acted || g.status == ChallengeLossResolved) && Blockable(g.lastAction.value) ==>
      var entitled := g.lastAction.value == ForeignAid || g.lastTarget == Some(g.seats[b].username);
      && (b == LastSeat(g) ==> r == Err(SelfBlock))
      && (b != LastSeat(g) && !entitled ==> r == Err(NotTheTarget))
      && (b != LastSeat(g) && entitled && name !in Blockers(g.lastAction.value) ==> r == Err(WrongBlockCard))
    ensures r.Ok? ==> r.value.status == Blocked && r.value.blocker == Some(g.seats[b].username)
    ensures r.Ok? ==> r.value.blockedWith == Some(name) && r.value.lastAction == g.lastAction
    ensures r.Ok? ==> r.value.seats == g.seats && r.value.deck == g.deck && r.value.turn == g.turn
  {
    if g.status != Acted && g.status != ChallengeLossResolved then Err(CannotBlockNow)
    else
      var a := g.lastAction.value;
      if !Blockable(a) then Err(Unblockable)
      else if b == LastSeat(g) then Err(SelfBlock)
      else if a != ForeignAid && g.lastTarget != Some(g.seats[b].username) then Err(NotTheTarget)
      else if name !in Blockers(a) then Err(WrongBlockCard)
      else Ok(g.(status := Blocked, blocker := Some(g.seats[b].username), blockedWith := Some(name)))
  }

  /** A block keeps the table consistent and changes no hand, money or deck. */
  lemma PoseBlockKeepsTable(g: GameState, b: nat, name: CardName, r: GameState)
    requires Consistent(g) && b < |g.seats|
    requires PoseBlock(g, b, name) == Ok(r)
    ensures Consistent(r) && CardTotal(r) == CardTotal(g)
  {
    assert Known(r.seats, g.seats[b].username);
    RestageKeepsConsistent(g, r);
  }
}

=== FILE: cardloss.dfy ===
/** Losing a card to an assassination or a coup (`lose_card`). */
module CardLoss {
  import opened Wrappers
  import opened Cards
  import opened Players
  import opened State
  import opened Engine

  /** The stages in which `lose_card` lets the target flip a card, as the source lists
      them. The list leaves out BLOCK_CHALLENGE_WON, which is where an assassination
      stands once the target's block has been shown false. */
  predicate LossTimeAsWritten(s: Status) {
    s == Acted || s == ChallengeLossResolved || s == BlockChallengeLossResolved
  }

  /** The stages in which the target of a pending assassination or coup owes a card:
      the source's list together with BLOCK_CHALLENGE_WON. */
  predicate LossTime(s: Status) {
    LossTimeAsWritten(s) || s == BlockChallengeWon
  }

  /** The window of stages in use: the intended one, or the source's. */
  predicate InWindow(intended: bool, s: Status) {
    if intended then LossTime(s) else LossTimeAsWritten(s)
  }

  /** Every check `lose_card` makes passes: an action that costs a card is pending, the
      loser is its target, the stage is in the window, and the hand holds a live card of
      the role named. */
  predicate MayLose(g: GameState, p: nat, name: CardName, intended: bool)
    requires p < |g.seats|
  {
    && g.lastAction.Some?
    && CostsACard(g.lastAction.value)
    && g.lastTarget == Some(g.seats[p].username)
    && InWindow(intended, g.status)
    && Card(name, false) in g.seats[p].cards
  }

  /** `lose_card` with the window of stages chosen by `intended`: seat `p` flips a live
      card of role `name`, and the pending action is over. The checks are made in this
      order, before anything changes. */
  function LoseCardIn(g: GameState, p: nat, name: CardName, intended: bool): (r: Result<GameState, Misplay>)
    requires Consistent(g) && p < |g.seats|
    ensures r.Ok? <==> MayLose(g, p, name, intended) && SurvivesFlip(g.seats, p)
    ensures (g.lastAction.None? || !CostsACard(g.lastAction.value)) ==> r == Err(NoLossPending)
    ensures g.lastAction.Some? && CostsACard(g.lastAction.value) ==>
      && (g.lastTarget != Some(g.seats[p].username) ==> r == Err(NotTheTarget))
      && (g.lastTarget == Some(g.seats[p].username) && !InWindow(intended, g.status) ==> r == Err(NotLossTime))
      && ((g.lastTarget == Some(g.seats[p].username) && InWindow(intended, g.status) &&
           Card(name, false) !in g.seats[p].cards) ==> r == Err(NoSuchCard))
    ensures MayLose(g, p, name, intended) && !SurvivesFlip(g.seats, p) ==> r == Err(EndlessRotation)
    ensures r.Ok? ==> Consistent(r.value) && CardTotal(r.value) == CardTotal(g)
  {
    if g.lastAction.None? || !CostsACard(g.lastAction.value) then Err(NoLossPending)
    else if g.lastTarget != Some(g.seats[p].username) then Err(NotTheTarget)
    else if !InWindow(intended, g.status) then Err(NotLossTime)
    else
      match FindLiveCard(g.seats[p].cards, name)
      case None => Err(NoSuchCard)
      case Some(ci) =>
        var f :- FlipCard(g, p, ci);
        FlipKeepsConsistent(g, p, ci);
        ClearKeepsConsistent(f);
        Ok(ClearAction(f))
  }

  /** `lose_card` as the source writes it. */
  function LoseCardAsWritten(g: GameState, p: nat, name: CardName): (r: Result<GameState, Misplay>)
    requires Consistent(g) && p < |g.seats|
    ensures r.Ok? <==> MayLose(g, p, name, false) && SurvivesFlip(g.seats, p)
    ensures g.status == BlockChallengeWon ==> r.Err?
  {
    LoseCardIn(g, p, name, false)
  }

  /** `lose_card` as intended: the target may also pay once their block has failed. */
  function LoseCard(g: GameState, p: nat, name: CardName): (r: Result<GameState, Misplay>)
    requires Consistent(g) && p < |g.seats|
    ensures r.Ok? <==> MayLose(g, p, name, true) && SurvivesFlip(g.seats, p)
    ensures LoseCardAsWritten(g, p, name).Ok? ==> r == LoseCardAsWritten(g, p, name)
  {
    LoseCardIn(g, p, name, true)
  }

  /** A card loss flips exactly one live card of the target, of the role named, and
      nothing else: no money moves, the deck stays and the game is back to READY. */
  lemma LoseCardOutcome(g: GameState, p: nat, name: CardName, intended: bool, r: GameState)
    requires Consistent(g) && p < |g.seats|
    requires LoseCardIn(g, p, name, intended) == Ok(r)
    ensures r.status == Ready && r.lastAction.None? && r.deck == g.deck
    ensures LiveCount(r.seats[p].cards) == LiveCount(g.seats[p].cards) - 1
    ensures LiveCopies(r.seats[p].cards, name) == LiveCopies(g.seats[p].cards, name) - 1
    ensures |r.seats| == |g.seats| && forall j :: 0 <= j < |g.seats| && j != p ==> r.seats[j] == g.seats[j]
    ensures r.seats[p].money == g.seats[p].money
  {
    var ci := FindLiveCard(g.seats[p].cards, name).value;
    FlipAtLiveCount(g.seats[p].cards, ci);
    var f := FlipCard(g, p, ci).value;
    assert r == ClearAction(f);
    FlipCopies(g.seats[p].cards, ci);
  }

  /** Flipping a live card takes one live copy of its role out of the hand. */
  lemma FlipCopies(cards: seq<Card>, i: nat)
    requires i < |cards| && !cards[i].eliminated
    ensures LiveCopies(FlipAt(cards, i), cards[i].name) == LiveCopies(cards, cards[i].name) - 1
  {
    var c := cards[i];
    var r := FlipAt(cards, i);
    assert cards == cards[..i] + [c] + cards[i + 1..];
    assert r == cards[..i] + [Card(c.name, true)] + cards[i + 1..];
    assert multiset(cards) == multiset(cards[..i]) + multiset{c} + multiset(cards[i + 1..]);
    assert multiset(r) == multiset(cards[..i]) + multiset{Card(c.name, true)} + multiset(cards[i + 1..]);
  }
}

=== FILE: cards.dfy ===
/** The five roles, the card record and the action tables of the game. */
module Cards {
  import opened Wrappers

  datatype CardName = Ambassador | Assassin | Captain | Contessa | Duke

  /** A card keeps its role for ever; `eliminated` only ever goes from false to true. */
  datatype Card = Card(name: CardName, eliminated: bool)

  const CopiesPerName: nat := 3
  const PoolSize: nat := 15

  /** Three live copies of one role. */
  function Triple(n: CardName): (r: seq<Card>)
    ensures forall m: CardName :: multiset(r)[Card(m, false)] == if m == n then CopiesPerName else 0
  {
    var r := [Card(n, false), Card(n, false), Card(n, false)];
    assert multiset(r) == multiset{Card(n, false), Card(n, false), Card(n, false)};
    r
  }

  /** The full pool dealt at the start: every role three times, nothing eliminated. */
  function Pool(): (r: seq<Card>)
    ensures |r| == PoolSize
    ensures forall c :: c in r ==> !c.eliminated
    ensures forall n: CardName :: multiset(r)[Card(n, false)] == CopiesPerName
  {
    var a := Triple(Ambassador) + Triple(Assassin);
    var b := Triple(Captain) + Triple(Contessa) + Triple(Duke);
    assert multiset(a + b) == multiset(Triple(Ambassador)) + multiset(Triple(Assassin))
      + multiset(Triple(Captain)) + multiset(Triple(Contessa)) + multiset(Triple(Duke));
    a + b
  }

  /** The seven canonical actions. */
  datatype Action = Exchange | Assassinate | Steal | Tax | Income | ForeignAid | Coup

  /** The canonical name of each action. */
  function ActionName(a: Action): string {
    match a
    case Exchange => "exchange"
    case Assassinate => "assassinate"
    case Steal => "steal"
    case Tax => "tax"
    case Income => "income"
    case ForeignAid => "foreignaid"
    case Coup => "coup"
  }

  /** Every spelling a player may use for an action. */
  const Aliases: set<string> := {
    "ambassador", "ambassade", "exchange", "assassinate", "assassin", "captain",
    "steal", "take", "duke", "tax", "income", "money", "foreignaid", "foreign", "aid", "coup"
  }

  /** Maps an alias to its action; an unknown word maps to nothing. */
  function ParseAction(alias: string): (r: Option<Action>)
    ensures r.Some? <==> alias in Aliases
  {
    if alias in {"ambassador", "ambassade", "exchange"} then Some(Exchange)
    else if alias in {"assassinate", "assassin"} then Some(Assassinate)
    else if alias in {"captain", "steal", "take"} then Some(Steal)
    else if alias in {"duke", "tax"} then Some(Tax)
    else if alias in {"income", "money"} then Some(Income)
    else if alias in {"foreignaid", "foreign", "aid"} then Some(ForeignAid)
    else if alias == "coup" then Some(Coup)
    else None
  }

  /** The canonical name of every action parses back to that action. */
  lemma ParseActionName(a: Action)
    ensures ParseAction(ActionName(a)) == Some(a)
    ensures ActionName(a) in Aliases
  {
  }

  /** Money paid when the action is taken, whatever happens to it afterwards. */
  function Cost(a: Action): nat {
    match a
    case Assassinate => 3
    case Coup => 7
    case _ => 0
  }

  /** Money credited to the actor once the action completes. */
  function Gain(a: Action): nat {
    match a
    case Steal => 2
    case Tax => 3
    case Income => 1
    case ForeignAid => 2
    case _ => 0
  }

  /** The role an action claims to hold, if it claims one. */
  function Claim(a: Action): Option<CardName> {
    match a
    case Exchange => Some(Ambassador)
    case Assassinate => Some(Assassin)
    case Steal => Some(Captain)
    case Tax => Some(Duke)
    case _ => None
  }

  /** The roles that may block the action (empty when it cannot be blocked). */
  function Blockers(a: Action): set<CardName> {
    match a
    case Assassinate => {Contessa}
    case Steal => {Ambassador, Captain}
    case ForeignAid => {Duke}
    case _ => {}
  }

  predicate Blockable(a: Action) {
    Blockers(a) != {}
  }

  predicate Targeted(a: Action) {
    a == Assassinate || a == Steal || a == Coup
  }

  /** Actions whose target must give up a card. */
  predicate CostsACard(a: Action) {
    a == Assassinate || a == Coup
  }

  /** Actions that need a follow-up from the actor or the target before the next turn. */
  predicate AwaitsResponse(a: Action) {
    CostsACard(a) || a == Exchange
  }
}

=== FILE: challenges.dfy ===
/** Challenges (`pose_challenge`, `resolve_challenge`, `_resolve_challenge`,
    `lose_challenge`): a claim to a role, or a block, is contested; the challengee
    reveals a card, and whoever turns out wrong gives one up. */
module Challenges {
  import opened Wrappers
  import opened Cards
  import opened Players
  import opened State
  import opened Engine

  /** The challenger's seat, found by the recorded username. */
  function ChallengerSeat(g: GameState): (r: nat)
    requires g.challenger.Some? && Known(g.seats, g.challenger.value)
    ensures r < |g.seats| && g.seats[r].username == g.challenger.value
  {
    SeatOf(g.seats, g.challenger.value).value
  }

  /** The challenger of a claim that turned out true, or of a block that turned out
      true, gives up card `ci` (`lose_challenge` once its checks pass). After a lost
      challenge of a claim the action goes on: it may still be blocked, and if it cannot
      be it completes when nothing more is needed. After a lost challenge of a block the
      block stands and the action is dropped unpaid. */
  function ConcedeChallenge(g: GameState, ch: nat, ci: nat): (r: Result<GameState, Misplay>)
    requires g.turn < |g.seats| && ch < |g.seats|
    requires ci < |g.seats[ch].cards| && !g.seats[ch].cards[ci].eliminated
    requires g.status == ChallengeLost || g.status == BlockChallengeLost
    requires g.lastAction.Some? && (g.status == ChallengeLost ==> Claim(g.lastAction.value).Some?)
    ensures r.Err? ==> r.error == EndlessRotation
    ensures r.Ok? ==> |r.value.seats| == |g.seats|
  {
    var f :- FlipCard(g, ch, ci);
    if g.status == ChallengeLost then ClaimGoesOn(f) else Ok(ClearAction(f))
  }

  /** After the challenger of a true claim has given up their card: the action may still
      be blocked, and if it cannot be it completes when nothing more is needed. */
  function ClaimGoesOn(f: GameState): (r: Result<GameState, Misplay>)
    requires f.turn < |f.seats| && f.lastAction.Some? && Claim(f.lastAction.value).Some?
    ensures r.Ok?
    ensures f.lastAction != Some(Tax) ==> r.value == f.(status := ChallengeLossResolved)
    ensures f.lastAction == Some(Tax) ==> r.value.status == Ready && r.value.lastAction.None?
    ensures SameHands(r.value.seats, f.seats)
  {
    var h := f.(status := ChallengeLossResolved);
    if Blockable(f.lastAction.value) then Ok(h)
    else MaybeAutoresolve(h, true, false)
  }

  /** Going on after a lost challenge keeps the table consistent, every card in play and
      every seat's name. */
  lemma ClaimGoesOnKeepsTable(f: GameState, r: GameState)
    requires Consistent(f) && f.status == ChallengeLost
    requires ClaimGoesOn(f) == Ok(r)
    ensures Consistent(r) && CardTotal(r) == CardTotal(f) && SameNames(r.seats, f.seats)
  {
    var h := f.(status := ChallengeLossResolved);
    RestageKeepsConsistent(f, h);
    if !Blockable(f.lastAction.value) {
      AutoresolveKeepsConsistent(h, true, false);
    }
  }

  /** The stage after a true claim or block, with the challengee's shown card swapped
      for one from the deck. */
  function Redealt(g: GameState, s: nat, name: CardName, shuffle: Shuffle): (k: GameState)
    requires s < |g.seats| && Card(name, false) in g.seats[s].cards
    requires IsShuffle(shuffle)
    ensures k.status == (if g.status == Challenged then ChallengeLost else BlockChallengeLost)
    ensures k.lastAction == g.lastAction && k.turn == g.turn && k.challenger == g.challenger
    ensures SameNames(k.seats, g.seats)
  {
    var lost := if g.status == Challenged then ChallengeLost else BlockChallengeLost;
    RedealCard(g.(status := lost), s, name, shuffle)
  }

  /** Apart from the stage, a lost challenge is exactly the challengee's redeal. */
  lemma RedealtIsRedeal(g: GameState, s: nat, name: CardName, shuffle: Shuffle)
    requires s < |g.seats| && Card(name, false) in g.seats[s].cards
    requires IsShuffle(shuffle)
    ensures var k := Redealt(g, s, name, shuffle);
      k == RedealCard(g, s, name, shuffle).(status := k.status)
  {
  }

  /** The redeal keeps the table consistent and every card in play, and it keeps every
      player's count of live cards. */
  lemma RedealtKeepsTable(g: GameState, s: nat, name: CardName, shuffle: Shuffle)
    requires Consistent(g) && s < |g.seats| && Card(name, false) in g.seats[s].cards
    requires IsShuffle(shuffle)
    requires g.status == Challenged || g.status == BlockChallenged
    ensures Consistent(Redealt(g, s, name, shuffle))
    ensures CardTotal(Redealt(g, s, name, shuffle)) == CardTotal(g)
    ensures forall j :: 0 <= j < |g.seats| ==>
      LiveCount(Redealt(g, s, name, shuffle).seats[j].cards) == LiveCount(g.seats[j].cards)
  {
    var lost := if g.status == Challenged then ChallengeLost else BlockChallengeLost;
    var h := g.(status := lost);
    RestageKeepsConsistent(g, h);
    RedealKeepsConsistent(h, s, name, shuffle);
    var k := RedealCard(h, s, name, shuffle);
    assert k == Redealt(g, s, name, shuffle);
    forall j | 0 <= j < |g.seats|
      ensures LiveCount(k.seats[j].cards) == LiveCount(g.seats[j].cards)
    {
      if j != s {
        assert k.seats[j] == g.seats[j];
      }
    }
  }

  /** The claim or block was true: the challengee's shown card goes back to the deck
      for a fresh one, and the challenger must give up a card, at once when they hold
      only one. */
  function Uphold(g: GameState, s: nat, name: CardName, shuffle: Shuffle): (r: Result<GameState, Misplay>)
    requires g.turn < |g.seats| && s < |g.seats| && Card(name, false) in g.seats[s].cards
    requires IsShuffle(shuffle)
    requires g.status == Challenged || g.status == BlockChallenged
    requires g.lastAction.Some? && g.challenger.Some? && Known(g.seats, g.challenger.value)
    requires g.status == Challenged ==> Claim(g.lastAction.value).Some?
    ensures r.Err? ==> r.error == EndlessRotation
    ensures r.Ok? ==> |r.value.seats| == |g.seats|
  {
    var ch := ChallengerSeat(g);
    var k := Redealt(g, s, name, shuffle);
    if OneCard(k.seats[ch]) then
      ConcedeChallenge(k, ch, FirstLiveCard(k.seats[ch].cards).value)
    else
      Ok(k)
  }

  /** The challengee shows the live card `name` (`_resolve_challenge`). A card that
      backs the claim or the block is upheld; a card that does not back the claim ends
      the action unpaid, and one that does not back the block defeats the block. */
  function Reveal(g: GameState, s: nat, name: CardName, shuffle: Shuffle): (r: Result<GameState, Misplay>)
    requires g.turn < |g.seats| && s < |g.seats| && Card(name, false) in g.seats[s].cards
    requires IsShuffle(shuffle)
    requires g.status == Challenged || g.status == BlockChallenged
    requires g.lastAction.Some? && g.challenger.Some? && Known(g.seats, g.challenger.value)
    requires g.status == Challenged ==> Claim(g.lastAction.value).Some?
    ensures r.Err? ==> r.error == EndlessRotation
    ensures r.Ok? ==> |r.value.seats| == |g.seats|
  {
    if g.status == Challenged && Claim(g.lastAction.value) != Some(name) then
      Ok(ClearAction(g))
    else if g.status == BlockChallenged && g.blockedWith != Some(name) then
      MaybeAutoresolve(g.(status := BlockChallengeWon), false, true)
    else
      Uphold(g, s, name, shuffle)
  }

  /** `pose_challenge`: seat `c` contests the pending claim (from ACTED, for an action
      that claims a role) or the pending block (from BLOCKED). Anybody may challenge,
      the actor included. A challengee with a single live card shows it at once. */
  function PoseChallenge(g: GameState, c: nat, shuffle: Shuffle): (r: Result<GameState, Misplay>)
    requires Consistent(g) && c < |g.seats| && IsShuffle(shuffle)
    ensures !(g.status == Acted && Claim(g.lastAction.value).Some?) && g.status != Blocked ==>
      r == Err(NothingToChallenge)
    ensures r.Err? ==> r.error == NothingToChallenge || r.error == EndlessRotation
    ensures r.Ok? ==> |r.value.seats| == |g.seats|
  {
    var contest :=
      if g.status == Acted && Claim(g.lastAction.value).Some? then Some(Challenged)
      else if g.status == Blocked then Some(BlockChallenged)
      else None;
    match contest
    case None => Err(NothingToChallenge)
    case Some(st) =>
      var h := g.(status := st, challenger := Some(g.seats[c].username));
      RestageKeepsConsistent(g, h);
      Confront(h, shuffle)
  }

  /** The challenge is on record: a challengee with a single live card shows it at
      once; anyone else is asked to choose. */
  function Confront(h: GameState, shuffle: Shuffle): (r: Result<GameState, Misplay>)
    requires Consistent(h) && (h.status == Challenged || h.status == BlockChallenged)
    requires IsShuffle(shuffle)
    ensures r.Err? ==> r.error == EndlessRotation
    ensures r.Ok? ==> |r.value.seats| == |h.seats|
  {
    var s := Challengee(h).value;
    if OneCard(h.seats[s]) then
      var ci := FirstLiveCard(h.seats[s].cards).value;
      assert h.seats[s].cards[ci] == Card(h.seats[s].cards[ci].name, false);
      Reveal(h, s, h.seats[s].cards[ci].name, shuffle)
    else
      Ok(h)
  }

  /** `resolve_challenge`: the challengee, seat `p`, shows a live card of role `name`. */
  function ResolveChallenge(g: GameState, p: nat, name: CardName, shuffle: Shuffle): (r: Result<GameState, Misplay>)
    requires Consistent(g) && p < |g.seats| && IsShuffle(shuffle)
    ensures Challengee(g) != Some(p) || (g.status != Challenged && g.status != BlockChallenged) ==>
      r == Err(NotChallenged)
    ensures Challengee(g) == Some(p) && (g.status == Challenged || g.status == BlockChallenged) ==>
      (r == Err(NoSuchCard) <==> Card(name, false) !in g.seats[p].cards)
    ensures r.Err? ==> r.error == NotChallenged || r.error == NoSuchCard || r.error == EndlessRotation
  {
    if Challengee(g) != Some(p) || (g.status != Challenged && g.status != BlockChallenged) then
      Err(NotChallenged)
    else if Card(name, false) !in g.seats[p].cards then
      Err(NoSuchCard)
    else
      Reveal(g, p, name, shuffle)
  }

  /** `lose_challenge`: the challenger, seat `p`, gives up a live card of role `name`
      after the claim or block they contested turned out true. The source looks the
      challenger up by name and fails outright when none is recorded, so one must be. */
  function LoseChallenge(g: GameState, p: nat, name: CardName): (r: Result<GameState, Misplay>)
    requires Consistent(g) && p < |g.seats|
    requires g.challenger.Some? && Known(g.seats, g.challenger.value)
    ensures p != ChallengerSeat(g) ==> r == Err(NotChallenged)
    ensures g.status != ChallengeLost && g.status != BlockChallengeLost ==> r == Err(NotChallenged)
    ensures p == ChallengerSeat(g) && (g.status == ChallengeLost || g.status == BlockChallengeLost) ==>
      (r == Err(NoSuchCard) <==> Card(name, false) !in g.seats[p].cards)
    ensures r.Err? ==> r.error == NotChallenged || r.error == NoSuchCard || r.error == EndlessRotation
  {
    var ch := ChallengerSeat(g);
    if p != ch || (g.status != ChallengeLost && g.status != BlockChallengeLost) then
      Err(NotChallenged)
    else
      match FindLiveCard(g.seats[ch].cards, name)
      case None => Err(NoSuchCard)
      case Some(ci) => ConcedeChallenge(g, ch, ci)
  }

  /** Conceding fails only when the challenger's card is the last live card anywhere. */
  lemma ConcedeFailsExactly(g: GameState, ch: nat, ci: nat)
    requires g.turn < |g.seats| && ch < |g.seats|
    requires ci < |g.seats[ch].cards| && !g.seats[ch].cards[ci].eliminated
    requires g.status == ChallengeLost || g.status == BlockChallengeLost
    requires g.lastAction.Some? && (g.status == ChallengeLost ==> Claim(g.lastAction.value).Some?)
    ensures ConcedeChallenge(g, ch, ci).Err? <==> !SurvivesFlip(g.seats, ch)
  {
  }

  /** The challenger loses exactly one live card, and no money moves unless a tax
      completes. */
  lemma ConcedeCosts(g: GameState, ch: nat, ci: nat, r: GameState)
    requires g.turn < |g.seats| && ch < |g.seats|
    requires ci < |g.seats[ch].cards| && !g.seats[ch].cards[ci].eliminated
    requires g.status == ChallengeLost || g.status == BlockChallengeLost
    requires g.lastAction.Some? && (g.status == ChallengeLost ==> Claim(g.lastAction.value).Some?)
    requires ConcedeChallenge(g, ch, ci) == Ok(r)
    ensures LiveCount(r.seats[ch].cards) == LiveCount(g.seats[ch].cards) - 1
    ensures g.lastAction != Some(Tax) ==> forall j :: 0 <= j < |g.seats| ==> r.seats[j].money == g.seats[j].money
  {
    FlipAtLiveCount(g.seats[ch].cards, ci);
    ConcedeSeats(g, ch, ci, r);
  }

  /** After a concession every hand is as the flip left it, and unless a tax completes
      so is every seat. */
  lemma ConcedeSeats(g: GameState, ch: nat, ci: nat, r: GameState)
    requires g.turn < |g.seats| && ch < |g.seats|
    requires ci < |g.seats[ch].cards| && !g.seats[ch].cards[ci].eliminated
    requires g.status == ChallengeLost || g.status == BlockChallengeLost
    requires g.lastAction.Some? && (g.status == ChallengeLost ==> Claim(g.lastAction.value).Some?)
    requires ConcedeChallenge(g, ch, ci) == Ok(r)
    ensures SameHands(r.seats, FlipInSeats(g.seats, ch, ci))
    ensures g.lastAction != Some(Tax) ==> r.seats == FlipInSeats(g.seats, ch, ci)
  {
    var f := FlipCard(g, ch, ci).value;
    if g.status == ChallengeLost {
      assert r == ClaimGoesOn(f).value;
    }
  }

  /** A lost challenge of a block drops the action unpaid; a lost challenge of a tax
      claim completes the tax; any other claim waits in CHALLENGE_LOSS_RESOLVED for a
      block or for its target. */
  lemma ConcedeOutcome(g: GameState, ch: nat, ci: nat, r: GameState)
    requires g.turn < |g.seats| && ch < |g.seats|
    requires ci < |g.seats[ch].cards| && !g.seats[ch].cards[ci].eliminated
    requires g.status == ChallengeLost || g.status == BlockChallengeLost
    requires g.lastAction.Some? && (g.status == ChallengeLost ==> Claim(g.lastAction.value).Some?)
    requires ConcedeChallenge(g, ch, ci) == Ok(r)
    ensures g.status == BlockChallengeLost ==> r.status == Ready && r.lastAction.None?
    ensures g.status == ChallengeLost && g.lastAction != Some(Tax) ==>
      r.status == ChallengeLossResolved && r.lastAction == g.lastAction
    ensures g.status == ChallengeLost && g.lastAction == Some(Tax) ==> r.status == Ready && r.lastAction.None?
  {
    var f := FlipCard(g, ch, ci).value;
    if g.status == ChallengeLost {
      assert r == ClaimGoesOn(f).value;
    }
  }

  /** Conceding keeps the table consistent, every card in play and every seat's name. */
  lemma ConcedeKeepsTable(g: GameState, ch: nat, ci: nat, r: GameState)
    requires Consistent(g) && ch < |g.seats|
    requires ci < |g.seats[ch].cards| && !g.seats[ch].cards[ci].eliminated
    requires g.status == ChallengeLost || g.status == BlockChallengeLost
    requires ConcedeChallenge(g, ch, ci) == Ok(r)
    ensures Consistent(r) && CardTotal(r) == CardTotal(g) && SameNames(r.seats, g.seats)
  {
    var f := FlipCard(g, ch, ci).value;
    FlippedKeepsTable(g, ch, ci, f);
    if g.status == ChallengeLost {
      ClaimAfterFlipKeepsTable(g, f, r);
    } else {
      ClearKeepsConsistent(f);
    }
  }

  /** The flip of a concession keeps the table consistent, every card and every name. */
  lemma FlippedKeepsTable(g: GameState, ch: nat, ci: nat, f: GameState)
    requires Consistent(g) && ch < |g.seats|
    requires ci < |g.seats[ch].cards| && !g.seats[ch].cards[ci].eliminated
    requires g.status == ChallengeLost || g.status == BlockChallengeLost
    requires FlipCard(g, ch, ci) == Ok(f)
    ensures Consistent(f) && f.status == g.status && CardTotal(f) == CardTotal(g) && SameNames(f.seats, g.seats)
  {
    FlipKeepsConsistent(g, ch, ci);
  }

  /** The claim goes on after the flip without disturbing the table. */
  lemma ClaimAfterFlipKeepsTable(g: GameState, f: GameState, r: GameState)
    requires Consistent(f) && f.status == ChallengeLost && ClaimGoesOn(f) == Ok(r)
    requires CardTotal(f) == CardTotal(g) && SameNames(f.seats, g.seats)
    ensures Consistent(r) && CardTotal(r) == CardTotal(g) && SameNames(r.seats, g.seats)
  {
    ClaimGoesOnKeepsTable(f, r);
    SameNamesTrans(r.seats, f.seats, g.seats);
  }

  /** A revealed card that does not back a challenged claim drops the action unpaid,
      with nobody losing a card. */
  lemma RevealRefutesClaim(g: GameState, s: nat, name: CardName, shuffle: Shuffle, r: GameState)
    requires g.turn < |g.seats| && s < |g.seats| && Card(name, false) in g.seats[s].cards
    requires IsShuffle(shuffle)
    requires g.status == Challenged && g.lastAction.Some? && Claim(g.lastAction.value).Some?
    requires g.challenger.Some? && Known(g.seats, g.challenger.value)
    requires Claim(g.lastAction.value) != Some(name)
    requires Reveal(g, s, name, shuffle) == Ok(r)
    ensures r.status == Ready && r.lastAction.None? && r.seats == g.seats && r.deck == g.deck
  {
  }

  /** A revealed card that does not back a challenged block defeats the block: a steal
      or foreign aid completes at once, an assassination waits for its target. */
  lemma RevealRefutesBlock(g: GameState, s: nat, name: CardName, shuffle: Shuffle, r: GameState)
    requires g.turn < |g.seats| && s < |g.seats| && Card(name, false) in g.seats[s].cards
    requires IsShuffle(shuffle)
    requires g.status == BlockChallenged && g.lastAction.Some? && Blockable(g.lastAction.value)
    requires g.challenger.Some? && Known(g.seats, g.challenger.value)
    requires g.blockedWith != Some(name)
    requires Reveal(g, s, name, shuffle) == Ok(r)
    ensures g.lastAction == Some(Assassinate) ==> r.status == BlockChallengeWon && r.lastAction == g.lastAction
    ensures g.lastAction != Some(Assassinate) ==> r.status == Ready && r.lastAction.None?
  {
    assert r == MaybeAutoresolve(g.(status := BlockChallengeWon), false, true).value;
  }

  /** A revealed card that backs what was claimed goes back to the deck for a fresh
      one, and the challenger must give up a card: at once when they hold only one,
      which for a lost block challenge drops the action; otherwise the game waits in
      CHALLENGE_LOST or BLOCK_CHALLENGE_LOST for their choice. */
  lemma UpholdOutcome(g: GameState, s: nat, name: CardName, shuffle: Shuffle, r: GameState)
    requires Consistent(g) && s < |g.seats| && Card(name, false) in g.seats[s].cards
    requires IsShuffle(shuffle)
    requires g.status == Challenged || g.status == BlockChallenged
    requires Uphold(g, s, name, shuffle) == Ok(r)
    ensures !OneCard(g.seats[ChallengerSeat(g)]) && g.status == Challenged ==>
      r.status == ChallengeLost && r.lastAction == g.lastAction
    ensures !OneCard(g.seats[ChallengerSeat(g)]) && g.status == BlockChallenged ==>
      r.status == BlockChallengeLost && r.lastAction == g.lastAction
    ensures OneCard(g.seats[ChallengerSeat(g)]) && g.status == BlockChallenged ==>
      r.status == Ready && r.lastAction.None?
    ensures OneCard(g.seats[ChallengerSeat(g)]) && g.status == Challenged ==>
      r.status == Ready || r.status == ChallengeLossResolved
    ensures !OneCard(g.seats[ChallengerSeat(g)]) ==> r == Redealt(g, s, name, shuffle)
    ensures OneCard(g.seats[ChallengerSeat(g)]) ==>
      |r.seats| == |g.seats| && LiveCount(r.seats[ChallengerSeat(g)].cards) == 0
  {
    var ch := ChallengerSeat(g);
    var k := Redealt(g, s, name, shuffle);
    RedealtKeepsTable(g, s, name, shuffle);
    assert OneCard(k.seats[ch]) == OneCard(g.seats[ch]);
    if OneCard(k.seats[ch]) {
      var ci := FirstLiveCard(k.seats[ch].cards).value;
      ConcedeOutcome(k, ch, ci, r);
      ConcedeCosts(k, ch, ci, r);
    }
  }

  /** Upholding keeps the table consistent, every card in play and every seat's name. */
  lemma UpholdKeepsTable(g: GameState, s: nat, name: CardName, shuffle: Shuffle, r: GameState)
    requires Consistent(g) && s < |g.seats| && Card(name, false) in g.seats[s].cards
    requires IsShuffle(shuffle)
    requires g.status == Challenged || g.status == BlockChallenged
    requires Uphold(g, s, name, shuffle) == Ok(r)
    ensures Consistent(r) && CardTotal(r) == CardTotal(g) && SameNames(r.seats, g.seats)
  {
    var ch := ChallengerSeat(g);
    var k := Redealt(g, s, name, shuffle);
    RedealtKeepsTable(g, s, name, shuffle);
    if OneCard(k.seats[ch]) {
      var ci := FirstLiveCard(k.seats[ch].cards).value;
      ConcedeKeepsTable(k, ch, ci, r);
      SameNamesTrans(r.seats, k.seats, g.seats);
    }
  }

  /** Revealing keeps the table consistent, every card in play and every seat's name. */
  lemma RevealKeepsTable(g: GameState, s: nat, name: CardName, shuffle: Shuffle, r: GameState)
    requires Consistent(g) && s < |g.seats| && Card(name, false) in g.seats[s].cards
    requires IsShuffle(shuffle)
    requires g.status == Challenged || g.status == BlockChallenged
    requires Reveal(g, s, name, shuffle) == Ok(r)
    ensures Consistent(r) && CardTotal(r) == CardTotal(g) && SameNames(r.seats, g.seats)
  {
    if g.status == Challenged && Claim(g.lastAction.value) != Some(name) {
      ClearKeepsConsistent(g);
    } else if g.status == BlockChallenged && g.blockedWith != Some(name) {
      var h := g.(status := BlockChallengeWon);
      RestageKeepsConsistent(g, h);
      AutoresolveKeepsConsistent(h, false, true);
    } else {
      UpholdKeepsTable(g, s, name, shuffle, r);
    }
  }

  /** A challenge on record waits for the challengee to show a card, unless the
      challengee has a single live card: then it is decided at once. */
  lemma ConfrontOutcome(h: GameState, shuffle: Shuffle, r: GameState)
    requires Consistent(h) && (h.status == Challenged || h.status == BlockChallenged)
    requires IsShuffle(shuffle)
    requires Confront(h, shuffle) == Ok(r)
    ensures !OneCard(h.seats[Challengee(h).value]) ==> r == h
    ensures OneCard(h.seats[Challengee(h).value]) ==> r.status != h.status
  {
    var s := Challengee(h).value;
    if OneCard(h.seats[s]) {
      var ci := FirstLiveCard(h.seats[s].cards).value;
      var name := h.seats[s].cards[ci].name;
      assert r == Reveal(h, s, name, shuffle).value;
      if h.status == Challenged && Claim(h.lastAction.value) != Some(name) {
        RevealRefutesClaim(h, s, name, shuffle, r);
      } else if h.status == BlockChallenged && h.blockedWith != Some(name) {
        RevealRefutesBlock(h, s, name, shuffle, r);
      } else {
        UpholdOutcome(h, s, name, shuffle, r);
      }
    }
  }

  /** Deciding a challenge on record keeps the table consistent and every card in play. */
  lemma ConfrontKeepsTable(h: GameState, shuffle: Shuffle, r: GameState)
    requires Consistent(h) && (h.status == Challenged || h.status == BlockChallenged)
    requires IsShuffle(shuffle)
    requires Confront(h, shuffle) == Ok(r)
    ensures Consistent(r) && CardTotal(r) == CardTotal(h) && SameNames(r.seats, h.seats)
  {
    var s := Challengee(h).value;
    if OneCard(h.seats[s]) {
      var ci := FirstLiveCard(h.seats[s].cards).value;
      var name := h.seats[s].cards[ci].name;
      assert h.seats[s].cards[ci] == Card(name, false);
      RevealKeepsTable(h, s, name, shuffle, r);
    }
  }

  /** An accepted challenge is the challenge put on record, then confronted. */
  lemma PoseChallengeConfronts(g: GameState, c: nat, shuffle: Shuffle, r: GameState, h: GameState)
    requires Consistent(g) && c < |g.seats| && IsShuffle(shuffle)
    requires PoseChallenge(g, c, shuffle) == Ok(r)
    requires h == g.(status := if g.status == Acted then Challenged else BlockChallenged,
                     challenger := Some(g.seats[c].username))
    ensures Consistent(h)
    ensures Confront(h, shuffle) == Ok(r)
  {
    RestageKeepsConsistent(g, h);
  }

  /** A posed challenge is recorded with its challenger and waits for the challengee to
      show a card, unless the challengee has a single live card and shows it at once:
      the actor for a challenged claim, the blocker for a challenged block. */
  lemma PoseChallengeOutcome(g: GameState, c: nat, shuffle: Shuffle, r: GameState)
    requires Consistent(g) && c < |g.seats| && IsShuffle(shuffle)
    requires PoseChallenge(g, c, shuffle) == Ok(r)
    ensures g.status == Acted || g.status == Blocked
    ensures g.status == Acted && !OneCard(g.seats[LastSeat(g)]) ==>
      r == g.(status := Challenged, challenger := Some(g.seats[c].username))
    ensures g.status == Blocked && !OneCard(g.seats[SeatOf(g.seats, g.blocker.value).value]) ==>
      r == g.(status := BlockChallenged, challenger := Some(g.seats[c].username))
    ensures g.status == Acted && OneCard(g.seats[LastSeat(g)]) ==> r.status != Challenged
    ensures g.status == Blocked && OneCard(g.seats[SeatOf(g.seats, g.blocker.value).value]) ==>
      r.status != BlockChallenged
  {
    var h := g.(status := if g.status == Acted then Challenged else BlockChallenged,
                challenger := Some(g.seats[c].username));
    PoseChallengeConfronts(g, c, shuffle, r, h);
    assert LastSeat(h) == LastSeat(g);
    ConfrontOutcome(h, shuffle, r);
  }

  /** A posed challenge keeps the table consistent and every card in play. */
  lemma PoseChallengeKeepsTable(g: GameState, c: nat, shuffle: Shuffle, r: GameState)
    requires Consistent(g) && c < |g.seats| && IsShuffle(shuffle)
    requires PoseChallenge(g, c, shuffle) == Ok(r)
    ensures Consistent(r) && CardTotal(r) == CardTotal(g) && SameNames(r.seats, g.seats)
  {
    var h := g.(status := if g.status == Acted then Challenged else BlockChallenged,
                challenger := Some(g.seats[c].username));
    PoseChallengeConfronts(g, c, shuffle, r, h);
    ConfrontKeepsTable(h, shuffle, r);
  }

  /** Showing a card keeps the table consistent and every card in play. */
  lemma ResolveChallengeKeepsTable(g: GameState, p: nat, name: CardName, shuffle: Shuffle, r: GameState)
    requires Consistent(g) && p < |g.seats| && IsShuffle(shuffle)
    requires ResolveChallenge(g, p, name, shuffle) == Ok(r)
    ensures Consistent(r) && CardTotal(r) == CardTotal(g) && SameNames(r.seats, g.seats)
  {
    RevealKeepsTable(g, p, name, shuffle, r);
  }

  /** Giving up a card after a lost challenge keeps the table consistent and every card
      in play, and the challenger has exactly one live card fewer. */
  lemma LoseChallengeKeepsTable(g: GameState, p: nat, name: CardName, r: GameState)
    requires Consistent(g) && p < |g.seats|
    requires g.challenger.Some? && Known(g.seats, g.challenger.value)
    requires LoseChallenge(g, p, name) == Ok(r)
    ensures Consistent(r) && CardTotal(r) == CardTotal(g) && SameNames(r.seats, g.seats)
    ensures LiveCount(r.seats[p].cards) == LiveCount(g.seats[p].cards) - 1
  {
    var ci := FindLiveCard(g.seats[p].cards, name).value;
    ConcedeKeepsTable(g, p, ci, r);
    ConcedeCosts(g, p, ci, r);
  }
}

=== FILE: engine.dfy ===
/** The rule engine: every verb of the action/challenge/block state machine as a pure
    function from a game state to the next state or a refusal. */
module Engine {
  import opened Wrappers
  import opened Seqs
  import opened Cards
  import opened Players
  import opened State

  /** Why a move is refused. Every constructor but the last is one of the source's
      `Misplay` messages; `EndlessRotation` stands for the one place where the source
      does not refuse but never returns: flipping the very last live card in the game
      leaves the rotation loop with no live player to stop on. */
  datatype Misplay =
    | NotYourTurn
    | NotTimeYet
    | UnknownAction
    | NotEnoughMoney
    | MustCoup
    | NeedsTarget
    | TargetOut
    | NothingToChallenge
    | NotChallenged
    | NoSuchCard
    | CannotBlockNow
    | Unblockable
    | SelfBlock
    | NotTheTarget
    | WrongBlockCard
    | NotExchanging
    | CannotTakeNow
    | CardsNotTaken
    | NoTwoCopies
    | NoLossPending
    | NotLossTime
    | EndlessRotation

  /** The randomness source: whatever order the shuffle produces, it is a permutation. */
  type Shuffle = seq<Card> -> seq<Card>

  ghost predicate IsShuffle(shuffle: Shuffle) {
    forall d :: multiset(shuffle(d)) == multiset(d)
  }

  lemma ShuffleLength(shuffle: Shuffle, d: seq<Card>)
    requires IsShuffle(shuffle)
    ensures |shuffle(d)| == |d|
    ensures forall c :: c in shuffle(d) <==> c in d
  {
    assert |multiset(shuffle(d))| == |multiset(d)|;
    forall c
      ensures c in shuffle(d) <==> c in d
    {
      assert c in shuffle(d) <==> c in multiset(shuffle(d));
    }
  }

  // ---------------------------------------------------------------------------
  // Bookkeeping of the pending action

  /** Forgets the pending action and returns to READY (`_clear_action`, as intended). */
  function ClearAction(g: GameState): (r: GameState)
    ensures r.status == Ready && r.lastAction.None? && r.lastTarget.None?
    ensures r.challenger.None? && r.blocker.None? && r.blockedWith.None?
    ensures r.seats == g.seats && r.deck == g.deck && r.turn == g.turn
  {
    g.(status := Ready, lastAction := None, lastTarget := None,
       challenger := None, blocker := None, blockedWith := None)
  }

  /** An empty record is consistent whenever the table is. */
  lemma ClearKeepsConsistent(g: GameState)
    requires Consistent(g)
    ensures Consistent(ClearAction(g))
  {
  }

  /** Adds `amount` (possibly negative) to the money of one seat. */
  function Credit(g: GameState, i: nat, amount: int): (r: GameState)
    requires i < |g.seats|
    ensures SameHands(r.seats, g.seats)
    ensures r.seats[i].money == g.seats[i].money + amount
    ensures forall j :: 0 <= j < |g.seats| && j != i ==> r.seats[j] == g.seats[j]
    ensures TotalMoney(r.seats) == TotalMoney(g.seats) + amount
    ensures r == g.(seats := r.seats)
  {
    var p := g.seats[i].(money := g.seats[i].money + amount);
    TotalMoneyUpdate(g.seats, i, p);
    g.(seats := g.seats[i := p])
  }

  /** Money lost by a seat whose money changed but whose hand did not. */
  lemma MoneyOnlyKeepsConsistent(g: GameState, r: GameState)
    requires g.turn < |g.seats|
    requires SameHands(r.seats, g.seats) && r.turn == g.turn && r.deck == g.deck
    requires r.status == g.status && r.lastAction == g.lastAction && r.lastTarget == g.lastTarget
    requires r.challenger == g.challenger && r.blocker == g.blocker && r.blockedWith == g.blockedWith
    ensures Consistent(g) ==> Consistent(r)
    ensures CardTotal(r) == CardTotal(g)
  {
    SameLivenessAgree(r.seats, g.seats);
    HandTotalSame(r.seats, g.seats);
    LastSeatSameLiveness(g, r);
  }

  /** The seat of the pending action's target, if it names a player at the table. */
  function TargetSeat(g: GameState): Option<nat> {
    if g.lastTarget.Some? then SeatOf(g.seats, g.lastTarget.value) else None
  }

  /** What seat `i` receives when action `a` completes: its gain if `i` is the actor,
      minus the 2 coins a steal takes from its target. */
  function Payout(a: Action, actor: nat, target: Option<nat>, i: nat): int {
    (if i == actor then Gain(a) else 0) - (if a == Steal && target == Some(i) then 2 else 0)
  }

  /** Pays action `a` to seat `actor` and, for a steal, takes 2 from seat `target`. */
  function Pay(g: GameState, a: Action, actor: nat, target: Option<nat>): (r: GameState)
    requires actor < |g.seats| && (target.Some? ==> target.value < |g.seats|)
    ensures SameHands(r.seats, g.seats) && r == g.(seats := r.seats)
    ensures r.seats[actor].money == g.seats[actor].money + Gain(a) - (if a == Steal && target == Some(actor) then 2 else 0)
    ensures a == Steal && target.Some? && target.value != actor ==> r.seats[target.value].money == g.seats[target.value].money - 2
    ensures forall i :: 0 <= i < |g.seats| && i != actor && (a != Steal || target != Some(i)) ==> r.seats[i] == g.seats[i]
    ensures TotalMoney(r.seats) == TotalMoney(g.seats) + Gain(a) - (if a == Steal && target.Some? then 2 else 0)
    ensures forall i :: 0 <= i < |g.seats| ==> r.seats[i].money == g.seats[i].money + Payout(a, actor, target, i)
  {
    var paid := Credit(g, actor, Gain(a));
    if a == Steal && target.Some? then Credit(paid, target.value, -2) else paid
  }

  /** Pays out the pending action without touching anything else: the gain goes to
      `last_player()`, then a steal takes 2 from its target. A steal whose target names
      nobody at the table, where the source would fail, takes nothing. */
  function PayPending(g: GameState): (r: GameState)
    requires g.turn < |g.seats| && g.lastAction.Some?
    ensures SameHands(r.seats, g.seats) && r == g.(seats := r.seats)
    ensures var a := g.lastAction.value; var actor := LastSeat(g);
      r.seats[actor].money == g.seats[actor].money + Gain(a) - (if a == Steal && TargetSeat(g) == Some(actor) then 2 else 0)
    ensures var a := g.lastAction.value; var t := TargetSeat(g);
      a == Steal && t.Some? && t.value != LastSeat(g) ==> r.seats[t.value].money == g.seats[t.value].money - 2
    ensures forall i :: 0 <= i < |g.seats| && i != LastSeat(g) && (g.lastAction != Some(Steal) || TargetSeat(g) != Some(i)) ==>
      r.seats[i] == g.seats[i]
    ensures TotalMoney(r.seats) ==
      TotalMoney(g.seats) + Gain(g.lastAction.value) - (if g.lastAction == Some(Steal) && TargetSeat(g).Some? then 2 else 0)
    ensures forall i :: 0 <= i < |g.seats| ==>
      r.seats[i].money == g.seats[i].money + Payout(g.lastAction.value, LastSeat(g), TargetSeat(g), i)
  {
    Pay(g, g.lastAction.value, LastSeat(g), TargetSeat(g))
  }

  /** Completes the pending action (`_flush_action`): pays its gains, takes a steal's
      2 coins from the target with no check on the target's balance, and clears the
      record. With nothing pending it changes nothing. */
  function FlushAction(g: GameState): (r: GameState)
    requires g.turn < |g.seats|
    ensures g.lastAction.None? ==> r == g
    ensures g.lastAction.Some? ==> r.status == Ready && r.lastAction.None? && r.lastTarget.None?
    ensures g.lastAction.Some? ==> r.challenger.None? && r.blocker.None? && r.blockedWith.None?
    ensures SameHands(r.seats, g.seats) && r.deck == g.deck && r.turn == g.turn
    ensures g.lastAction.Some? ==> forall i :: 0 <= i < |g.seats| ==>
      r.seats[i].money == g.seats[i].money + Payout(g.lastAction.value, LastSeat(g), TargetSeat(g), i)
    ensures CardTotal(r) == CardTotal(g)
  {
    if g.lastAction.None? then g
    else
      var g2 := PayPending(g);
      HandTotalSame(g2.seats, g.seats);
      ClearAction(g2)
  }

  /** Completing the pending action keeps the table consistent. */
  lemma FlushKeepsConsistent(g: GameState)
    requires Consistent(g)
    ensures Consistent(FlushAction(g))
  {
    if g.lastAction.Some? {
      var g2 := PayPending(g);
      MoneyOnlyKeepsConsistent(g, g2);
      ClearKeepsConsistent(g2);
    }
  }

  /** What seat `i` is owed by the action pending before a new one starts: its payout,
      unless the action was blocked. */
  function Owed(g: GameState, i: nat): int
    requires g.turn < |g.seats|
  {
    if g.status != Blocked && g.lastAction.Some? then Payout(g.lastAction.value, LastSeat(g), TargetSeat(g), i)
    else 0
  }

  /** What a new action does first with the one before it: a blocked action is dropped
      without paying anything; anything else still pending is completed. */
  function Settle(g: GameState): (r: GameState)
    requires Consistent(g)
    ensures r.status == Ready && r.lastAction.None?
    ensures SameHands(r.seats, g.seats) && r.deck == g.deck && r.turn == g.turn
    ensures g.status == Blocked ==> r.seats == g.seats
    ensures forall i :: 0 <= i < |g.seats| ==> r.seats[i].money == g.seats[i].money + Owed(g, i)
    ensures Consistent(r) && CardTotal(r) == CardTotal(g)
  {
    if g.status == Blocked then ClearKeepsConsistent(g); ClearAction(g)
    else FlushKeepsConsistent(g); FlushAction(g)
  }

  /** Rotates the head of the table to the back and skips eliminated players
      (the turn advance of `_begin_action`). */
  function PassTurn(g: GameState): (r: GameState)
    requires g.turn < |g.seats| && IsLive(g.seats[g.turn])
    ensures r == g.(turn := r.turn) && r.turn < |r.seats|
    ensures IsLive(r.seats[r.turn])
    ensures IsRotationOf(Names(Order(r)), Names(Order(g)))
    ensures LastSeat(r) == g.turn
  {
    var r := g.(turn := FirstLiveFrom(g.seats, SeatAfter(|g.seats|, g.turn)));
    AdvanceKeepsActorLast(g);
    TurnChangeIsRotation(g, r);
    r
  }

  /** A freshly recorded action on a consistent table is consistent. */
  lemma ActedConsistent(g: GameState, r: GameState)
    requires Consistent(g)
    requires r.seats == g.seats && r.deck == g.deck
    requires r.turn < |r.seats| && IsLive(r.seats[r.turn])
    requires r.status == Acted && r.lastAction.Some?
    requires Targeted(r.lastAction.value) ==> r.lastTarget.Some? && Known(r.seats, r.lastTarget.value)
    ensures Consistent(r)
  {
  }

  /** Starts a new action (`_begin_action`): records it with status ACTED, charges its
      cost to the actor at once, and passes the turn to the next live player. */
  function BeginAction(g: GameState, a: Action, target: Option<string>): (r: GameState)
    requires Consistent(g) && g.status == Ready
    ensures r.status == Acted && r.lastAction == Some(a) && r.lastTarget == target
    ensures SameHands(r.seats, g.seats) && r.deck == g.deck
    ensures r.seats[NextSeat(g)].money == g.seats[NextSeat(g)].money - Cost(a)
    ensures forall j :: 0 <= j < |g.seats| && j != NextSeat(g) ==> r.seats[j] == g.seats[j]
    ensures r.turn < |r.seats| && IsLive(r.seats[r.turn])
    ensures LastSeat(r) == NextSeat(g)
  {
    NextSeatIsHead(g);
    var g1 := Credit(g, NextSeat(g), -(Cost(a) as int));
    PassTurn(g1.(status := Acted, lastAction := Some(a), lastTarget := target))
  }

  /** A new action keeps the table consistent, keeps every card, and only rotates the
      order of play. */
  lemma BeginActionKeepsTable(g: GameState, a: Action, target: Option<string>)
    requires Consistent(g) && g.status == Ready
    requires target.Some? ==> Known(g.seats, target.value)
    requires Targeted(a) ==> target.Some?
    ensures Consistent(BeginAction(g, a, target))
    ensures CardTotal(BeginAction(g, a, target)) == CardTotal(g)
    ensures IsRotationOf(Names(Order(BeginAction(g, a, target))), Names(Order(g)))
  {
    var r := BeginAction(g, a, target);
    NextSeatIsHead(g);
    var g1 := Credit(g, NextSeat(g), -(Cost(a) as int));
    assert r.seats == g1.seats;
    MoneyOnlyKeepsConsistent(g, g1);
    ActedConsistent(g1, r);
    HandTotalSame(r.seats, g.seats);
    TurnChangeIsRotation(g, r);
  }

  // ---------------------------------------------------------------------------
  // Flipping cards

  /** Flipping a live card of seat `si` leaves somebody live: the seat itself keeps a
      live card, or another seat has one. */
  predicate SurvivesFlip(seats: seq<Player>, si: nat)
    requires si < |seats|
  {
    LiveCount(seats[si].cards) >= 2 || exists j :: 0 <= j < |seats| && j != si && IsLive(seats[j])
  }

  /** The seating after card `ci` of seat `si` is eliminated. */
  function FlipInSeats(seats: seq<Player>, si: nat, ci: nat): (r: seq<Player>)
    requires si < |seats| && ci < |seats[si].cards|
    ensures |r| == |seats| && r[si] == seats[si].(cards := FlipAt(seats[si].cards, ci))
    ensures forall j :: 0 <= j < |seats| && j != si ==> r[j] == seats[j]
  {
    seats[si := seats[si].(cards := FlipAt(seats[si].cards, ci))]
  }

  /** Somebody is still live after a flip exactly when the flip survives. */
  lemma FlipLeavesLive(seats: seq<Player>, si: nat, ci: nat)
    requires si < |seats| && ci < |seats[si].cards| && !seats[si].cards[ci].eliminated
    ensures HasLive(FlipInSeats(seats, si, ci)) <==> SurvivesFlip(seats, si)
  {
    var r := FlipInSeats(seats, si, ci);
    FlipAtLiveCount(seats[si].cards, ci);
    if SurvivesFlip(seats, si) {
      if LiveCount(seats[si].cards) >= 2 {
        assert IsLive(r[si]);
      } else {
        var j :| 0 <= j < |seats| && j != si && IsLive(seats[j]);
        assert IsLive(r[j]);
      }
    }
    if HasLive(r) {
      var j :| 0 <= j < |r| && IsLive(r[j]);
      if j != si {
        assert IsLive(seats[j]);
      }
    }
  }

  /** Eliminates card `ci` of seat `si` (`_flip_card`) and, if that put the head of the
      rotation out, rotates on to the next live player. When no live card would be left
      anywhere the source's rotation loop never ends; that is `EndlessRotation`. */
  function FlipCard(g: GameState, si: nat, ci: nat): (r: Result<GameState, Misplay>)
    requires g.turn < |g.seats| && si < |g.seats|
    requires ci < |g.seats[si].cards| && !g.seats[si].cards[ci].eliminated
    ensures r.Err? <==> !SurvivesFlip(g.seats, si)
    ensures r.Err? ==> r.error == EndlessRotation
    ensures r.Ok? ==> r.value == g.(seats := FlipInSeats(g.seats, si, ci), turn := r.value.turn)
    ensures r.Ok? ==> r.value.turn < |r.value.seats| && IsLive(r.value.seats[r.value.turn])
    ensures r.Ok? && IsLive(r.value.seats[g.turn]) ==> r.value.turn == g.turn
    ensures r.Ok? ==> r.value.turn == FirstLiveFrom(r.value.seats, g.turn)
  {
    if !SurvivesFlip(g.seats, si) then Err(EndlessRotation)
    else
      var seats := FlipInSeats(g.seats, si, ci);
      FlipLeavesLive(g.seats, si, ci);
      var h := g.(seats := seats);
      NextSeatIsHead(h);
      Ok(h.(turn := FirstLiveFrom(seats, g.turn)))
  }

  /** A flip keeps every card in the game, changes one card's state and keeps the table
      consistent (no flip happens while an exchange holds extra cards). */
  lemma FlipKeepsConsistent(g: GameState, si: nat, ci: nat)
    requires Consistent(g) && g.status != CardsTaken && si < |g.seats|
    requires ci < |g.seats[si].cards| && !g.seats[si].cards[ci].eliminated
    requires SurvivesFlip(g.seats, si)
    ensures Consistent(FlipCard(g, si, ci).value)
    ensures CardTotal(FlipCard(g, si, ci).value) == CardTotal(g)
    ensures LiveCount(FlipCard(g, si, ci).value.seats[si].cards) == LiveCount(g.seats[si].cards) - 1
  {
    var r := FlipCard(g, si, ci).value;
    FlipAtLiveCount(g.seats[si].cards, ci);
    TableChangeKeepsConsistent(g, r);
    HandTotalUpdate(g.seats, si, r.seats[si]);
    assert r.seats == g.seats[si := r.seats[si]];
  }

  // ---------------------------------------------------------------------------
  // Redealing a revealed card

  /** Returns the revealed live card of role `name` from seat `si` to the deck,
      shuffles, and deals the seat the card now on top (`_redeal_card`). */
  function RedealCard(g: GameState, si: nat, name: CardName, shuffle: Shuffle): (r: GameState)
    requires si < |g.seats| && Card(name, false) in g.seats[si].cards
    requires IsShuffle(shuffle)
    ensures r == g.(deck := r.deck, seats := r.seats)
    ensures SameNames(r.seats, g.seats) && r.seats[si].money == g.seats[si].money
    ensures forall j :: 0 <= j < |g.seats| && j != si ==> r.seats[j] == g.seats[j]
    ensures |r.deck| == |g.deck| && |r.seats[si].cards| == |g.seats[si].cards|
    ensures r.seats[si].cards[..|g.seats[si].cards| - 1] == RemoveCard(g.seats[si].cards, name).value
  {
    var hand := RemoveCard(g.seats[si].cards, name).value;
    var d := shuffle(g.deck + [Card(name, false)]);
    ShuffleLength(shuffle, g.deck + [Card(name, false)]);
    var p := g.seats[si].(cards := hand + [d[|d| - 1]]);
    g.(deck := d[..|d| - 1], seats := g.seats[si := p])
  }

  /** A redeal moves cards between the seat and the deck and loses none. */
  lemma RedealConserves(g: GameState, si: nat, name: CardName, shuffle: Shuffle)
    requires si < |g.seats| && Card(name, false) in g.seats[si].cards
    requires IsShuffle(shuffle)
    ensures var r := RedealCard(g, si, name, shuffle);
      multiset(r.deck) + multiset(r.seats[si].cards) == multiset(g.deck) + multiset(g.seats[si].cards)
  {
    var r := RedealCard(g, si, name, shuffle);
    var cards := r.seats[si].cards;
    var n := |g.seats[si].cards|;
    var hand := RemoveCard(g.seats[si].cards, name).value;
    RemoveCardTakesOne(g.seats[si].cards, name);
    RedealSwapsShown(g, si, name, shuffle);
    assert cards == hand + [cards[n - 1]] by {
      assert cards == cards[..n - 1] + [cards[n - 1]];
    }
    calc {
      multiset(r.deck) + multiset(cards);
      multiset(r.deck) + multiset{cards[n - 1]} + multiset(hand);
      multiset(g.deck) + multiset{Card(name, false)} + multiset(hand);
      multiset(g.deck) + multiset(g.seats[si].cards);
    }
  }

  /** The redeal swaps exactly two cards: the shown card goes into the deck and the
      card dealt in its place, the last of the new hand, comes out of it. */
  lemma RedealSwapsShown(g: GameState, si: nat, name: CardName, shuffle: Shuffle)
    requires si < |g.seats| && Card(name, false) in g.seats[si].cards
    requires IsShuffle(shuffle)
    ensures var r := RedealCard(g, si, name, shuffle);
      multiset(r.deck) + multiset{r.seats[si].cards[|g.seats[si].cards| - 1]} == multiset(g.deck) + multiset{Card(name, false)}
  {
    DrawLast(g.deck, Card(name, false), shuffle(g.deck + [Card(name, false)]));
  }

  /** A shuffle of `deck` with `c` added, split into the card on top and the rest: the
      two together are the deck and `c`. */
  lemma DrawLast(deck: seq<Card>, c: Card, d: seq<Card>)
    requires multiset(d) == multiset(deck + [c])
    ensures |d| == |deck| + 1
    ensures multiset(d[..|d| - 1]) + multiset{d[|d| - 1]} == multiset(deck) + multiset{c}
  {
    SameMultisetLength(d, deck + [c]);
    var rest, top := d[..|d| - 1], d[|d| - 1];
    assert d == rest + [top];
    calc {
      multiset(rest) + multiset{top};
      multiset(rest + [top]);
      multiset(deck) + multiset{c};
    }
  }

  /** Sequences with the same multiset have the same length. */
  lemma SameMultisetLength(a: seq<Card>, b: seq<Card>)
    requires multiset(a) == multiset(b)
    ensures |a| == |b|
  {
    assert |a| == |multiset(a)|;
  }

  /** Drawn from a deck of live cards, the new card is live, so the seat keeps its live
      count and the deck still holds only live cards. */
  lemma RedealHand(g: GameState, si: nat, name: CardName, shuffle: Shuffle)
    requires si < |g.seats| && Card(name, false) in g.seats[si].cards
    requires IsShuffle(shuffle) && forall c :: c in g.deck ==> !c.eliminated
    ensures LiveCount(RedealCard(g, si, name, shuffle).seats[si].cards) == LiveCount(g.seats[si].cards)
    ensures forall c :: c in RedealCard(g, si, name, shuffle).deck ==> !c.eliminated
  {
    var d := shuffle(g.deck + [Card(name, false)]);
    ShuffleLength(shuffle, g.deck + [Card(name, false)]);
    RedealtCardLive(g.seats[si].cards, name, d);
    forall c | c in RedealCard(g, si, name, shuffle).deck
      ensures !c.eliminated
    {
      assert c in d;
    }
  }

  /** Swapping a live card for the last card of a live deck keeps the live count. */
  lemma RedealtCardLive(cards: seq<Card>, name: CardName, d: seq<Card>)
    requires Card(name, false) in cards && |d| > 0 && forall c :: c in d ==> !c.eliminated
    ensures LiveCount(RemoveCard(cards, name).value + [d[|d| - 1]]) == LiveCount(cards)
  {
    var top := d[|d| - 1];
    assert top in d;
    LiveCountAppend(RemoveCard(cards, name).value, [top]);
  }

  /** A redeal keeps every card in the game, keeps the seat's live count when the deck
      holds only live cards, and keeps the table consistent. */
  lemma RedealKeepsConsistent(g: GameState, si: nat, name: CardName, shuffle: Shuffle)
    requires Consistent(g) && g.status != CardsTaken
    requires si < |g.seats| && Card(name, false) in g.seats[si].cards
    requires IsShuffle(shuffle)
    ensures LiveCount(RedealCard(g, si, name, shuffle).seats[si].cards) == LiveCount(g.seats[si].cards)
    ensures Consistent(RedealCard(g, si, name, shuffle))
    ensures CardTotal(RedealCard(g, si, name, shuffle)) == CardTotal(g)
  {
    var r := RedealCard(g, si, name, shuffle);
    RedealHand(g, si, name, shuffle);
    assert IsLive(r.seats[r.turn]) by {
      assert IsLive(g.seats[g.turn]);
    }
    TableChangeKeepsConsistent(g, r);
    HandTotalUpdate(g.seats, si, r.seats[si]);
    assert r.seats == g.seats[si := r.seats[si]];
  }

  // ---------------------------------------------------------------------------
  // Auto-resolution

  /** The seat of the player a challenge is aimed at (`_challengee`, as intended): the
      actor, who is the last live player, for a challenged action, and the blocker
      for a challenged block. */
  function Challengee(g: GameState): (r: Option<nat>)
    requires g.turn < |g.seats|
    ensures r.Some? ==> r.value < |g.seats|
    ensures g.status == Challenged ==> r == Some(LastSeat(g))
    ensures g.status != Challenged && g.blocker.Some? ==> r == SeatOf(g.seats, g.blocker.value)
    ensures g.status != Challenged && g.blocker.None? ==> r.None?
  {
    if g.status == Challenged then Some(LastSeat(g))
    else if g.blocker.Some? then SeatOf(g.seats, g.blocker.value)
    else None
  }

  /** `_challengee` as written: `players[-1]`, the last entry of the rotation, which
      may be a player who is already out. */
  function ChallengeeAsWritten(g: GameState): (r: Option<nat>)
    requires g.turn < |g.seats|
    ensures r.Some? ==> r.value < |g.seats|
    ensures g.status == Challenged ==> r.Some? && g.seats[r.value] == Order(g)[|g.seats| - 1]
  {
    if g.status == Challenged then
      var n := |g.seats|;
      RotationAt(g.seats, g.turn, n - 1);
      Some(Wrap(n, g.turn, n - 1))
    else if g.blocker.Some? then SeatOf(g.seats, g.blocker.value)
    else None
  }

  /** A coup whose target has one live card flips it at once and, as intended, closes
      the coup. */
  function CoupAutoFlip(g: GameState, t: nat): (r: Result<GameState, Misplay>)
    requires g.turn < |g.seats| && t < |g.seats| && OneCard(g.seats[t])
    ensures r.Err? <==> !SurvivesFlip(g.seats, t)
    ensures r.Ok? ==> |r.value.seats| == |g.seats| && IsOut(r.value.seats[t])
    ensures r.Ok? ==> r.value.status == Ready && r.value.lastAction.None?
    ensures r.Ok? ==> forall j :: 0 <= j < |g.seats| ==> r.value.seats[j].money == g.seats[j].money
  {
    var ci := FirstLiveCard(g.seats[t].cards).value;
    FlipAtLiveCount(g.seats[t].cards, ci);
    var f :- FlipCard(g, t, ci);
    Ok(ClearAction(f))
  }

  /** The coup auto-flip as written: the card is flipped but the coup stays pending. */
  function CoupAutoFlipAsWritten(g: GameState, t: nat): (r: Result<GameState, Misplay>)
    requires g.turn < |g.seats| && t < |g.seats| && OneCard(g.seats[t])
    ensures r.Err? <==> !SurvivesFlip(g.seats, t)
    ensures r.Ok? ==> |r.value.seats| == |g.seats| && IsOut(r.value.seats[t])
    ensures r.Ok? ==> r.value.status == g.status && r.value.lastAction == g.lastAction
  {
    var ci := FirstLiveCard(g.seats[t].cards).value;
    FlipAtLiveCount(g.seats[t].cards, ci);
    FlipCard(g, t, ci)
  }

  /** The pending action completes on its own: income always; a coup on a player with one
      card; any other action that takes no card and no exchange once its block is
      defeated, or once its challenge failed if it cannot be blocked. */
  predicate CompletesAlone(a: Action, oneCardTarget: bool, challengeComplete: bool, blockComplete: bool) {
    || a == Income
    || (a == Coup && oneCardTarget)
    || (!CostsACard(a) && a != Exchange && (blockComplete || (challengeComplete && !Blockable(a))))
  }

  /** `_maybe_autoresolve_action`: finishes whatever can finish without another command. */
  function MaybeAutoresolve(g: GameState, challengeComplete: bool, blockComplete: bool): (r: Result<GameState, Misplay>)
    requires g.turn < |g.seats|
    ensures g.lastAction.None? ==> r == Ok(g)
    ensures r.Err? ==> g.lastAction == Some(Coup) && r.error == EndlessRotation
    ensures r.Ok? && g.lastAction != Some(Coup) ==> SameHands(r.value.seats, g.seats) && r.value.deck == g.deck
    ensures g.lastAction.Some? && r.Ok? ==>
      var a := g.lastAction.value;
      var one := a == Coup && TargetSeat(g).Some? && OneCard(g.seats[TargetSeat(g).value]);
      if CompletesAlone(a, one, challengeComplete, blockComplete)
      then r.value.status == Ready && r.value.lastAction.None?
      else r.value == g
  {
    match g.lastAction
    case None => Ok(g)
    case Some(a) =>
      if a == Income then Ok(FlushAction(g))
      else if a == Coup && TargetSeat(g).Some? && OneCard(g.seats[TargetSeat(g).value]) then
        CoupAutoFlip(g, TargetSeat(g).value)
      else if CostsACard(a) || a == Exchange then Ok(g)
      else if blockComplete || (challengeComplete && !Blockable(a)) then Ok(FlushAction(g))
      else Ok(g)
  }

  /** The coup auto-flip keeps the table consistent and every card in play. */
  lemma CoupAutoFlipKeepsConsistent(g: GameState, t: nat)
    requires Consistent(g) && g.status != CardsTaken && t < |g.seats| && OneCard(g.seats[t])
    requires CoupAutoFlip(g, t).Ok?
    ensures Consistent(CoupAutoFlip(g, t).value)
    ensures CardTotal(CoupAutoFlip(g, t).value) == CardTotal(g)
    ensures SameNames(CoupAutoFlip(g, t).value.seats, g.seats)
  {
    var ci := FirstLiveCard(g.seats[t].cards).value;
    FlipKeepsConsistent(g, t, ci);
    ClearKeepsConsistent(FlipCard(g, t, ci).value);
  }

  /** Auto-resolution keeps the table consistent, every card in play and every seat. */
  lemma AutoresolveKeepsConsistent(g: GameState, challengeComplete: bool, blockComplete: bool)
    requires Consistent(g) && g.status != CardsTaken
    requires MaybeAutoresolve(g, challengeComplete, blockComplete).Ok?
    ensures Consistent(MaybeAutoresolve(g, challengeComplete, blockComplete).value)
    ensures CardTotal(MaybeAutoresolve(g, challengeComplete, blockComplete).value) == CardTotal(g)
    ensures SameNames(MaybeAutoresolve(g, challengeComplete, blockComplete).value.seats, g.seats)
  {
    if g.lastAction.Some? {
      var a := g.lastAction.value;
      if a == Coup && TargetSeat(g).Some? && OneCard(g.seats[TargetSeat(g).value]) {
        CoupAutoFlipKeepsConsistent(g, TargetSeat(g).value);
      } else {
        FlushKeepsConsistent(g);
      }
    }
  }

  // ---------------------------------------------------------------------------
  // Taking an action

  /** A new action may start: nothing is pending, or the pending action is acted on,
      blocked, or past a failed challenge, and needs no answer from a player. */
  predicate TimeForAction(g: GameState) {
    || g.status == Ready
    || ((g.status == Acted || g.status == Blocked || g.status == ChallengeLossResolved)
        && (g.lastAction.None? || !AwaitsResponse(g.lastAction.value)))
  }

  /** The username recorded for an optional target seat. */
  function TargetName(g: GameState, target: Option<nat>): (r: Option<string>)
    requires target.Some? ==> target.value < |g.seats|
    ensures r.Some? <==> target.Some?
    ensures r.Some? ==> Known(g.seats, r.value)
  {
    if target.Some? then Some(g.seats[target.value].username) else None
  }

  /** The first check of `take_action` that fails, if any; they are made in this order
      and all of them before anything changes. */
  function Refusal(g: GameState, p: nat, alias: string, target: Option<nat>): (r: Option<Misplay>)
    requires g.turn < |g.seats| && p < |g.seats|
    requires target.Some? ==> target.value < |g.seats|
    ensures r.None? <==> Admissible(g, p, alias, target)
    ensures p != NextSeat(g) ==> r == Some(NotYourTurn)
    ensures p == NextSeat(g) && !TimeForAction(g) ==> r == Some(NotTimeYet)
    ensures p == NextSeat(g) && TimeForAction(g) && alias !in Aliases ==> r == Some(UnknownAction)
    ensures p == NextSeat(g) && TimeForAction(g) && alias in Aliases ==>
      var a := ParseAction(alias).value;
      var money := g.seats[p].money;
      var funded := Cost(a) <= money && (money < 10 || a == Coup);
      && (money < Cost(a) ==> r == Some(NotEnoughMoney))
      && (Cost(a) <= money && money >= 10 && a != Coup ==> r == Some(MustCoup))
      && (funded && Targeted(a) && target.None? ==> r == Some(NeedsTarget))
      && (funded && Targeted(a) && target.Some? && IsOut(g.seats[target.value]) ==> r == Some(TargetOut))
  {
    if p != NextSeat(g) then Some(NotYourTurn)
    else if !TimeForAction(g) then Some(NotTimeYet)
    else match ParseAction(alias)
    case None => Some(UnknownAction)
    case Some(a) =>
      var money := g.seats[p].money;
      if money < Cost(a) then Some(NotEnoughMoney)
      else if money >= 10 && a != Coup then Some(MustCoup)
      else if Targeted(a) && target.None? then Some(NeedsTarget)
      else if Targeted(a) && IsOut(g.seats[target.value]) then Some(TargetOut)
      else None
  }

  /** Every check `take_action` makes passes. */
  predicate Admissible(g: GameState, p: nat, alias: string, target: Option<nat>)
    requires g.turn < |g.seats| && p < |g.seats|
    requires target.Some? ==> target.value < |g.seats|
  {
    && p == NextSeat(g)
    && TimeForAction(g)
    && alias in Aliases
    && var a := ParseAction(alias).value;
       && Cost(a) <= g.seats[p].money
       && (g.seats[p].money < 10 || a == Coup)
       && (Targeted(a) ==> target.Some? && IsLive(g.seats[target.value]))
  }

  /** What an admitted action does: settle the previous action, begin this one, and
      resolve it at once if it can be. */
  function Perform(g: GameState, a: Action, name: Option<string>): (r: Result<GameState, Misplay>)
    requires Consistent(g)
    ensures r.Err? ==> a == Coup && r.error == EndlessRotation
  {
    MaybeAutoresolve(BeginAction(Settle(g), a, name), false, false)
  }

  /** `take_action`: seat `p` starts the action named by `alias` against the optional
      target seat. A refusal changes nothing; an admitted action is performed. */
  function TakeAction(g: GameState, p: nat, alias: string, target: Option<nat>): (r: Result<GameState, Misplay>)
    requires Consistent(g) && p < |g.seats|
    requires target.Some? ==> target.value < |g.seats|
    ensures Refusal(g, p, alias, target).Some? ==> r == Err(Refusal(g, p, alias, target).value)
    ensures r.Ok? ==> Admissible(g, p, alias, target)
    ensures Admissible(g, p, alias, target) ==> r.Ok? || r.error == EndlessRotation
    ensures r.Ok? ==> r == Perform(g, ParseAction(alias).value, TargetName(g, target))
  {
    match Refusal(g, p, alias, target)
    case Some(m) => Err(m)
    case None => Perform(g, ParseAction(alias).value, TargetName(g, target))
  }

  /** Settling the previous action and beginning a new one keeps the table consistent,
      every card in play and every seat's name. */
  lemma SettleBeginKeepsTable(g: GameState, a: Action, name: Option<string>)
    requires Consistent(g)
    requires name.Some? ==> Known(g.seats, name.value)
    requires Targeted(a) ==> name.Some?
    ensures Consistent(BeginAction(Settle(g), a, name))
    ensures CardTotal(BeginAction(Settle(g), a, name)) == CardTotal(g)
    ensures SameNames(BeginAction(Settle(g), a, name).seats, g.seats)
    ensures BeginAction(Settle(g), a, name).status == Acted
  {
    var g1 := Settle(g);
    SameNamesAgree(g1.seats, g.seats);
    BeginActionKeepsTable(g1, a, name);
  }

  /** A performed action keeps the table consistent and every card in play, and only
      rotates the order of play. */
  lemma PerformKeepsTable(g: GameState, a: Action, name: Option<string>, r: GameState)
    requires Consistent(g)
    requires name.Some? ==> Known(g.seats, name.value)
    requires Targeted(a) ==> name.Some?
    requires Perform(g, a, name) == Ok(r)
    ensures Consistent(r) && CardTotal(r) == CardTotal(g)
    ensures IsRotationOf(Names(Order(r)), Names(Order(g)))
  {
    var g2 := BeginAction(Settle(g), a, name);
    SettleBeginKeepsTable(g, a, name);
    AutoresolveKeepsConsistent(g2, false, false);
    SameNamesTrans(r.seats, g2.seats, g.seats);
    TurnChangeIsRotation(g, r);
  }

  /** The coup of a freshly begun action lands at once: its target has one live card. */
  predicate CoupLands(seats: seq<Player>, a: Action, name: Option<string>) {
    a == Coup && name.Some? && SeatOf(seats, name.value).Some? && OneCard(seats[SeatOf(seats, name.value).value])
  }

  /** Whether a coup lands depends only on names and hands. */
  lemma CoupLandsSameHands(a: seq<Player>, b: seq<Player>, c: seq<Player>, act: Action, name: Option<string>)
    requires SameHands(a, b) && SameHands(b, c)
    ensures CoupLands(a, act, name) == CoupLands(c, act, name)
  {
    assert SameHands(a, c);
    if name.Some? {
      SeatOfCongruent(a, c, name.value);
    }
  }

  /** Auto-resolution straight after an action begins: income pays its 1 coin to the
      actor and completes, a landing coup completes with nobody's money changed, and
      anything else is left as it is. */
  lemma AutoresolveBegun(h: GameState, r: GameState)
    requires h.turn < |h.seats| && h.lastAction.Some?
    requires MaybeAutoresolve(h, false, false) == Ok(r)
    ensures |r.seats| == |h.seats|
    ensures forall i :: 0 <= i < |h.seats| ==>
      r.seats[i].money == h.seats[i].money + (if h.lastAction == Some(Income) && i == LastSeat(h) then 1 else 0)
    ensures h.lastAction == Some(Income) || CoupLands(h.seats, h.lastAction.value, h.lastTarget) ==>
      r.status == Ready && r.lastAction.None?
    ensures h.lastAction != Some(Income) && !CoupLands(h.seats, h.lastAction.value, h.lastTarget) ==> r == h
  {
    var a := h.lastAction.value;
    if a == Income {
      IncomeFlushed(h);
    } else if CoupLands(h.seats, a, h.lastTarget) {
      assert r == CoupAutoFlip(h, TargetSeat(h).value).value;
    } else {
      assert r == h;
    }
  }

  /** Completing income pays the actor 1 coin and nobody else anything. */
  lemma IncomeFlushed(h: GameState)
    requires h.turn < |h.seats| && h.lastAction == Some(Income)
    ensures forall i :: 0 <= i < |h.seats| ==>
      FlushAction(h).seats[i].money == h.seats[i].money + (if i == LastSeat(h) then 1 else 0)
  {
    forall i | 0 <= i < |h.seats|
      ensures Payout(Income, LastSeat(h), TargetSeat(h), i) == (if i == LastSeat(h) then 1 else 0)
    {
    }
  }

  /** Seat `i`'s money after a performed action `a`: what it was owed by the action
      before, less the cost of `a` if it is the actor, plus 1 if `a` is income. */
  function AfterCharge(g: GameState, a: Action, i: nat): int
    requires g.turn < |g.seats| && i < |g.seats|
  {
    g.seats[i].money + Owed(g, i) - (if i == NextSeat(g) then Cost(a) - (if a == Income then 1 else 0) else 0)
  }

  /** A performed action settles the action before it, charges the actor the cost at once,
      pays income at once, and changes nobody else's money. */
  lemma PerformCharges(g: GameState, a: Action, name: Option<string>, r: GameState)
    requires Consistent(g)
    requires Perform(g, a, name) == Ok(r)
    ensures |r.seats| == |g.seats|
    ensures forall i :: 0 <= i < |g.seats| ==> r.seats[i].money == AfterCharge(g, a, i)
  {
    var g1 := Settle(g);
    var g2 := BeginAction(g1, a, name);
    var actor := NextSeat(g);
    NextSeatIsHead(g);
    NextSeatIsHead(g1);
    assert LastSeat(g2) == actor;
    AutoresolveBegun(g2, r);
    forall i | 0 <= i < |g.seats|
      ensures r.seats[i].money == AfterCharge(g, a, i)
    {
      assert g1.seats[i].money == g.seats[i].money + Owed(g, i);
      assert g2.seats[i].money == g1.seats[i].money - (if i == actor then Cost(a) else 0);
      assert r.seats[i].money == g2.seats[i].money + (if a == Income && i == actor then 1 else 0);
      if i == actor {
        assert AfterCharge(g, a, i) == g.seats[i].money + Owed(g, i) - Cost(a) + (if a == Income then 1 else 0);
      } else {
        assert AfterCharge(g, a, i) == g.seats[i].money + Owed(g, i);
      }
    }
  }

  /** What a performed action leaves pending: income is complete at once, a coup is
      complete at once exactly when its target has one live card, and anything else
      waits as ACTED with the action and its target recorded. */
  lemma PerformRecords(g: GameState, a: Action, name: Option<string>, r: GameState)
    requires Consistent(g)
    requires Perform(g, a, name) == Ok(r)
    ensures a == Income || CoupLands(g.seats, a, name) ==> r.status == Ready && r.lastAction.None?
    ensures a != Income && !CoupLands(g.seats, a, name) ==>
      r.status == Acted && r.lastAction == Some(a) && r.lastTarget == name
  {
    var g1 := Settle(g);
    var g2 := BeginAction(g1, a, name);
    CoupLandsSameHands(g2.seats, g1.seats, g.seats, a, name);
    AutoresolveBegun(g2, r);
  }

  /** An accepted `take_action` keeps the table consistent and every card in play, and
      only rotates the order of play. */
  lemma TakeActionKeepsTable(g: GameState, p: nat, alias: string, target: Option<nat>, r: GameState)
    requires Consistent(g) && p < |g.seats|
    requires target.Some? ==> target.value < |g.seats|
    requires TakeAction(g, p, alias, target) == Ok(r)
    ensures Consistent(r) && CardTotal(r) == CardTotal(g)
    ensures IsRotationOf(Names(Order(r)), Names(Order(g)))
  {
    PerformKeepsTable(g, ParseAction(alias).value, TargetName(g, target), r);
  }

  /** The funds check comes before the previous action is paid out, so the actor can
      only end below zero when that action was an unblocked steal from the actor. */
  lemma TakeActionFunded(g: GameState, p: nat, alias: string, target: Option<nat>, r: GameState)
    requires Consistent(g) && p < |g.seats|
    requires target.Some? ==> target.value < |g.seats|
    requires TakeAction(g, p, alias, target) == Ok(r)
    ensures |r.seats| == |g.seats|
    ensures r.seats[p].money == AfterCharge(g, ParseAction(alias).value, p)
    ensures r.seats[p].money >= 0 ||
      (g.status != Blocked && g.lastAction == Some(Steal) && TargetSeat(g) == Some(p))
  {
    var a := ParseAction(alias).value;
    var name := TargetName(g, target);
    assert Admissible(g, p, alias, target);
    assert p == NextSeat(g) && Cost(a) <= g.seats[p].money;
    assert Perform(g, a, name) == Ok(r);
    PerformCharges(g, a, name, r);
    OwedNonNegative(g, p);
    assert r.seats[p].money == g.seats[p].money + Owed(g, p) - Cost(a) + (if a == Income then 1 else 0);
  }

  /** Only a steal from seat `i` can leave it owed a negative amount. */
  lemma OwedNonNegative(g: GameState, i: nat)
    requires g.turn < |g.seats|
    ensures Owed(g, i) >= 0 || (g.status != Blocked && g.lastAction == Some(Steal) && TargetSeat(g) == Some(i))
  {
  }
}

=== FILE: exchange.dfy ===
/** The ambassador's exchange (`take_cards`, `keep_cards`): the actor draws two cards
    from the deck, then names two cards to give up. */
module Exchange {
  import opened Wrappers
  import opened Cards
  import opened Players
  import opened State
  import opened Engine

  /** A hand after drawing the last two cards of the deck `d`: the hand keeps its cards
      in order and gains the two, which leave the deck. */
  function DrawTwo(hand: seq<Card>, d: seq<Card>): (r: seq<Card>)
    requires |d| >= 2
    ensures |r| == |hand| + 2 && r[..|hand|] == hand
    ensures multiset(d[..|d| - 2]) + multiset(r) == multiset(d) + multiset(hand)
  {
    var n := |d|;
    assert d == d[..n - 2] + [d[n - 2], d[n - 1]];
    hand + [d[n - 1], d[n - 2]]
  }

  /** Drawn from a deck of live cards, the two cards are live. */
  lemma DrawTwoLive(hand: seq<Card>, d: seq<Card>)
    requires |d| >= 2 && forall c :: c in d ==> !c.eliminated
    ensures LiveCount(DrawTwo(hand, d)) == LiveCount(hand) + 2
  {
    var n := |d|;
    var two := [d[n - 1], d[n - 2]];
    assert d[n - 1] in d && d[n - 2] in d;
    assert !two[0].eliminated && !two[1].eliminated;
    LiveCountAppend(hand, two);
    assert LiveCount(two[1..][1..]) == 0;
  }

  /** A hand after giving up a live card of each of the two roles named. */
  function DiscardTwo(hand: seq<Card>, first: CardName, second: CardName): (r: seq<Card>)
    requires Card(first, false) in hand && Card(second, false) in hand
    requires first == second ==> LiveCopies(hand, first) >= 2
    ensures |r| == |hand| - 2
    ensures multiset(r) + multiset{Card(first, false), Card(second, false)} == multiset(hand)
    ensures LiveCount(r) == LiveCount(hand) - 2
  {
    var h1 := RemoveCard(hand, first).value;
    RemoveCardTakesOne(hand, first);
    SecondStillHeld(hand, h1, Card(first, false), Card(second, false));
    var r := RemoveCard(h1, second).value;
    RemoveCardTakesOne(h1, second);
    TwoRemoved(multiset(hand), multiset(h1), multiset(r), Card(first, false), Card(second, false));
    r
  }

  /** After one card `c1` leaves the hand, a card `c2` the hand held is still there,
      unless it was the same card held once. */
  lemma SecondStillHeld(hand: seq<Card>, h1: seq<Card>, c1: Card, c2: Card)
    requires multiset(h1) + multiset{c1} == multiset(hand)
    requires c2 in hand && (c1 == c2 ==> multiset(hand)[c1] >= 2)
    ensures c2 in h1
  {
    assert c2 in multiset(hand);
    assert multiset(h1)[c2] >= 1;
  }

  /** Taking `c1` and then `c2` out of a hand takes the pair out. */
  lemma TwoRemoved(hand: multiset<Card>, h1: multiset<Card>, r: multiset<Card>, c1: Card, c2: Card)
    requires h1 + multiset{c1} == hand
    requires r + multiset{c2} == h1
    ensures r + multiset{c1, c2} == hand
  {
  }

  /** The exchange may draw its cards: it is the actor's own pending exchange, and
      nobody is still answering it. */
  predicate MayTake(g: GameState, p: nat)
    requires g.turn < |g.seats| && p < |g.seats|
  {
    && p == LastSeat(g)
    && g.lastAction == Some(Exchange)
    && (g.status == Acted || g.status == ChallengeLossResolved || g.status == BlockChallengeLossResolved)
  }

  /** `take_cards`: the actor, seat `p`, shuffles the deck and takes its last two cards
      into their hand. The source pops from the deck without a check, so on the path
      that draws the deck must hold two cards. */
  function TakeCards(g: GameState, p: nat, shuffle: Shuffle): (r: Result<GameState, Misplay>)
    requires Consistent(g) && p < |g.seats| && IsShuffle(shuffle)
    requires MayTake(g, p) ==> |g.deck| >= 2
    ensures r.Ok? <==> MayTake(g, p)
    ensures p != LastSeat(g) ==> r == Err(NotYourTurn)
    ensures p == LastSeat(g) && g.lastAction != Some(Exchange) ==> r == Err(NotExchanging)
    ensures p == LastSeat(g) && g.lastAction == Some(Exchange) && !MayTake(g, p) ==> r == Err(CannotTakeNow)
    ensures r.Ok? ==> r.value.status == CardsTaken && r.value.lastAction == g.lastAction
    ensures r.Ok? ==> |shuffle(g.deck)| == |g.deck| && r.value.deck == shuffle(g.deck)[..|g.deck| - 2]
    ensures r.Ok? ==> r.value.seats == g.seats[p := g.seats[p].(cards := DrawTwo(g.seats[p].cards, shuffle(g.deck)))]
  {
    if p != LastSeat(g) then Err(NotYourTurn)
    else if g.lastAction != Some(Exchange) then Err(NotExchanging)
    else if !MayTake(g, p) then Err(CannotTakeNow)
    else
      var d := shuffle(g.deck);
      ShuffleLength(shuffle, g.deck);
      var hand := DrawTwo(g.seats[p].cards, d);
      Ok(g.(status := CardsTaken, deck := d[..|d| - 2], seats := g.seats[p := g.seats[p].(cards := hand)]))
  }

  /** Drawing keeps every card in play and keeps the table consistent: the two cards
      come from a deck of live cards, so the actor holds at least three live cards. */
  lemma TakeCardsKeepsTable(g: GameState, p: nat, shuffle: Shuffle, r: GameState)
    requires Consistent(g) && p < |g.seats| && IsShuffle(shuffle)
    requires MayTake(g, p) ==> |g.deck| >= 2
    requires TakeCards(g, p, shuffle) == Ok(r)
    ensures Consistent(r) && CardTotal(r) == CardTotal(g)
    ensures LiveCount(r.seats[p].cards) == LiveCount(g.seats[p].cards) + 2
  {
    var d := shuffle(g.deck);
    ShuffleLength(shuffle, g.deck);
    DrawTwoLive(g.seats[p].cards, d);
    forall c | c in r.deck
      ensures !c.eliminated
    {
      assert c in d;
    }
    HandTotalUpdate(g.seats, p, r.seats[p]);
    var h := g.(deck := r.deck, seats := r.seats);
    assert SameLiveness(h.seats, g.seats);
    SameLivenessAgree(h.seats, g.seats);
    LastSeatSameLiveness(g, h);
    TableChangeKeepsConsistent(g, h);
    DrawnKeepsConsistent(h, r);
  }

  /** The exchange may return its cards: it is the actor's own exchange, the cards are
      drawn, the hand holds a live card of each role named, and two of the same role
      when both are the same. */
  predicate MayKeep(g: GameState, p: nat, first: CardName, second: CardName)
    requires g.turn < |g.seats| && p < |g.seats|
  {
    && p == LastSeat(g)
    && g.lastAction == Some(Exchange)
    && g.status == CardsTaken
    && (first == second ==> LiveCopies(g.seats[p].cards, first) >= 2)
    && Card(first, false) in g.seats[p].cards
    && Card(second, false) in g.seats[p].cards
  }

  /** `keep_cards`, as the source has it: the two roles named are the cards the actor
      gives up, and they are removed from the game rather than returned to the deck.
      Every check is made before anything changes. */
  function KeepCards(g: GameState, p: nat, first: CardName, second: CardName): (r: Result<GameState, Misplay>)
    requires Consistent(g) && p < |g.seats|
    ensures r.Ok? <==> MayKeep(g, p, first, second)
    ensures p != LastSeat(g) ==> r == Err(NotYourTurn)
    ensures p == LastSeat(g) && g.lastAction != Some(Exchange) ==> r == Err(NotExchanging)
    ensures p == LastSeat(g) && g.lastAction == Some(Exchange) && g.status != CardsTaken ==> r == Err(CardsNotTaken)
    ensures p == LastSeat(g) && g.lastAction == Some(Exchange) && g.status == CardsTaken ==>
      && (first == second && LiveCopies(g.seats[p].cards, first) < 2 ==> r == Err(NoTwoCopies))
      && (!(first == second && LiveCopies(g.seats[p].cards, first) < 2) && !MayKeep(g, p, first, second) ==>
            r == Err(NoSuchCard))
    ensures r.Ok? ==> r.value.status == Ready && r.value.lastAction.None? && r.value.deck == g.deck
    ensures r.Ok? ==> r.value.seats == g.seats[p := g.seats[p].(cards := DiscardTwo(g.seats[p].cards, first, second))]
  {
    var cards := g.seats[p].cards;
    if p != LastSeat(g) then Err(NotYourTurn)
    else if g.lastAction != Some(Exchange) then Err(NotExchanging)
    else if g.status != CardsTaken then Err(CardsNotTaken)
    else if first == second && LiveCopies(cards, first) < 2 then Err(NoTwoCopies)
    else if Card(first, false) !in cards || Card(second, false) !in cards then Err(NoSuchCard)
    else
      var hand := DiscardTwo(cards, first, second);
      Ok(ClearAction(g).(seats := g.seats[p := g.seats[p].(cards := hand)]))
  }

  /** Returning the cards keeps the table consistent; as the source has it, the game
      then holds two cards fewer. */
  lemma KeepCardsKeepsTable(g: GameState, p: nat, first: CardName, second: CardName, r: GameState)
    requires Consistent(g) && p < |g.seats|
    requires KeepCards(g, p, first, second) == Ok(r)
    ensures Consistent(r)
    ensures CardTotal(r) == CardTotal(g) - 2
  {
    var c := ClearAction(g);
    var hand := DiscardTwo(g.seats[p].cards, first, second);
    assert LiveCount(g.seats[p].cards) >= 3;
    ClearKeepsConsistent(g);
    HandChangeKeepsConsistent(c, p, hand);
    HandTotalUpdate(g.seats, p, r.seats[p]);
  }
}

=== FILE: findings.dfy ===
/** Places where the engine as written does not do what it evidently means to, each
    shown on the code as written and set against the corrected behaviour the rest of
    the model uses. */
module Findings {
  import opened Wrappers
  import opened Cards
  import opened Players
  import opened State
  import opened Engine
  import opened Challenges
  import opened Blocks
  import opened Exchange
  import opened CardLoss

  /** No new action can start. */
  ghost predicate NoAction(g: GameState)
    requires Consistent(g)
  {
    forall p: nat, alias: string, t: Option<nat> :: p < |g.seats| && (t.Some? ==> t.value < |g.seats|) ==>
      TakeAction(g, p, alias, t).Err?
  }

  /** No challenge can be posed, answered or conceded. */
  ghost predicate NoChallenge(g: GameState)
    requires Consistent(g)
  {
    && (forall c: nat, s: Shuffle :: c < |g.seats| && IsShuffle(s) ==> PoseChallenge(g, c, s).Err?)
    && (forall p: nat, n: CardName, s: Shuffle :: p < |g.seats| && IsShuffle(s) ==> ResolveChallenge(g, p, n, s).Err?)
  }

  /** No challenge can be conceded; the source's `lose_challenge` cannot even be called
      without a recorded challenger. */
  ghost predicate NoConcession(g: GameState)
    requires Consistent(g)
  {
    forall p: nat, n: CardName :: p < |g.seats| && g.challenger.Some? && Known(g.seats, g.challenger.value) ==>
      LoseChallenge(g, p, n).Err?
  }

  /** No block is accepted. */
  ghost predicate NoBlock(g: GameState)
    requires Consistent(g)
  {
    forall b: nat, n: CardName :: b < |g.seats| ==> PoseBlock(g, b, n).Err?
  }

  /** Neither step of an exchange is accepted. */
  ghost predicate NoExchange(g: GameState)
    requires Consistent(g)
  {
    && (forall p: nat, s: Shuffle :: p < |g.seats| && IsShuffle(s) && (MayTake(g, p) ==> |g.deck| >= 2) ==>
          TakeCards(g, p, s).Err?)
    && (forall p: nat, x: CardName, y: CardName :: p < |g.seats| ==> KeepCards(g, p, x, y).Err?)
  }

  /** No card loss is accepted, with `lose_card` as the source has it. */
  ghost predicate NoLoss(g: GameState)
    requires Consistent(g)
  {
    forall p: nat, n: CardName :: p < |g.seats| ==> LoseCardAsWritten(g, p, n).Err?
  }

  /** No verb can move the game on: every call any player can make is refused. */
  ghost predicate Stuck(g: GameState)
    requires Consistent(g)
  {
    NoAction(g) && NoChallenge(g) && NoConcession(g) && NoBlock(g) && NoExchange(g) && NoLoss(g)
  }

  /** No action starts while the pending one still waits for an answer. */
  lemma NoActionWhenWaiting(g: GameState)
    requires Consistent(g) && !TimeForAction(g)
    ensures NoAction(g)
  {
    forall p: nat, alias: string, t: Option<nat> | p < |g.seats| && (t.Some? ==> t.value < |g.seats|)
      ensures TakeAction(g, p, alias, t).Err?
    {
      assert !Admissible(g, p, alias, t);
    }
  }

  /** Nothing can be challenged, answered or conceded outside the challenge stages. */
  lemma NoChallengeOutside(g: GameState)
    requires Consistent(g) && g.lastAction.Some?
    requires !(g.status == Acted && Claim(g.lastAction.value).Some?) && g.status != Blocked
    requires g.status != Challenged && g.status != BlockChallenged
    requires g.status != ChallengeLost && g.status != BlockChallengeLost
    ensures NoChallenge(g) && NoConcession(g)
  {
  }

  /** Nothing can be blocked outside the blocking stages or when the action has no
      counter. */
  lemma NoBlockOutside(g: GameState)
    requires Consistent(g)
    requires (g.status != Acted && g.status != ChallengeLossResolved) || !Blockable(g.lastAction.value)
    ensures NoBlock(g)
  {
  }

  /** Neither exchange step is accepted when no exchange is pending. */
  lemma NoExchangeOutside(g: GameState)
    requires Consistent(g) && g.lastAction != Some(Exchange)
    ensures NoExchange(g)
  {
  }

  /** A player who is out holds no live card of any role. */
  lemma OutHoldsNone(p: Player, n: CardName)
    requires IsOut(p)
    ensures Card(n, false) !in p.cards
  {
    LiveCountPositive(p.cards);
  }

  // ---------------------------------------------------------------------------
  // The coup auto-flip leaves the coup pending (engine.py:344-345)

  /** A coup still recorded as pending although its target is already out. */
  predicate CoupLeftPending(g: GameState)
    requires g.turn < |g.seats|
  {
    && g.status == Acted
    && g.lastAction == Some(Coup)
    && TargetSeat(g).Some?
    && IsOut(g.seats[TargetSeat(g).value])
  }

  /** As written, the auto-flip of a coup on a one-card target knocks the target out
      and leaves the coup pending. */
  lemma CoupAutoFlipAsWrittenLeavesCoup(g: GameState, t: nat, r: GameState)
    requires Consistent(g) && g.status == Acted && g.lastAction == Some(Coup)
    requires t < |g.seats| && TargetSeat(g) == Some(t) && OneCard(g.seats[t])
    requires CoupAutoFlipAsWritten(g, t) == Ok(r)
    ensures Consistent(r) && CoupLeftPending(r)
  {
    var ci := FirstLiveCard(g.seats[t].cards).value;
    FlipKeepsConsistent(g, t, ci);
    assert SameNames(r.seats, g.seats);
    SeatOfCongruent(r.seats, g.seats, g.lastTarget.value);
  }

  /** Once a coup is left pending on a player who is out, the game cannot go on: the
      coup blocks the next turn, and only its target could close it, with a card they
      no longer have. */
  lemma CoupLeftPendingIsStuck(g: GameState)
    requires Consistent(g) && CoupLeftPending(g)
    ensures Stuck(g)
  {
    NoActionWhenWaiting(g);
    NoChallengeOutside(g);
    NoBlockOutside(g);
    NoExchangeOutside(g);
    var t := TargetSeat(g).value;
    forall p: nat, n: CardName | p < |g.seats|
      ensures LoseCardAsWritten(g, p, n).Err?
    {
      if p == t {
        OutHoldsNone(g.seats[t], n);
      } else {
        assert g.seats[p].username != g.seats[t].username;
      }
    }
  }

  /** As intended, the auto-flip closes the coup and the next turn can start. */
  lemma CoupAutoFlipCloses(g: GameState, t: nat, r: GameState)
    requires Consistent(g) && g.status == Acted && g.lastAction == Some(Coup)
    requires t < |g.seats| && OneCard(g.seats[t])
    requires CoupAutoFlip(g, t) == Ok(r)
    ensures Consistent(r) && r.status == Ready && TimeForAction(r) && IsOut(r.seats[t])
  {
    CoupAutoFlipKeepsConsistent(g, t);
  }

  // ---------------------------------------------------------------------------
  // An assassination whose block was refuted cannot be paid (engine.py:477-480, 555-556)

  /** The target blocked an assassination with a role they did not hold, and the
      assassination is pending again. */
  predicate AssassinationUnblocked(g: GameState) {
    g.status == BlockChallengeWon && g.lastAction == Some(Assassinate)
  }

  /** As written, `lose_card` refuses every card in that stage, and no other verb
      accepts it either: the game cannot go on. */
  lemma AssassinationUnblockedIsStuck(g: GameState)
    requires Consistent(g) && AssassinationUnblocked(g)
    ensures Stuck(g)
  {
    NoActionWhenWaiting(g);
    NoChallengeOutside(g);
    NoBlockOutside(g);
    NoExchangeOutside(g);
  }

  /** As intended, the target pays the assassination with any live card, unless that
      card is the last live card in the game. */
  lemma AssassinationUnblockedIsPaid(g: GameState, t: nat, name: CardName)
    requires Consistent(g) && AssassinationUnblocked(g)
    requires t < |g.seats| && g.lastTarget == Some(g.seats[t].username)
    requires Card(name, false) in g.seats[t].cards
    ensures LoseCard(g, t, name).Ok? <==> SurvivesFlip(g.seats, t)
    ensures LoseCard(g, t, name).Ok? ==> LoseCard(g, t, name).value.status == Ready
  {
    if LoseCard(g, t, name).Ok? {
      LoseCardOutcome(g, t, name, true, LoseCard(g, t, name).value);
    }
  }

  /** A blocked assassination that nobody challenges waits for good: no new action,
      block, exchange or card loss is accepted, and only a challenge of the block is. */
  lemma BlockedAssassinationWaits(g: GameState, c: nat, shuffle: Shuffle)
    requires Consistent(g) && g.status == Blocked && g.lastAction == Some(Assassinate)
    requires c < |g.seats| && IsShuffle(shuffle)
    ensures NoAction(g) && NoBlock(g) && NoExchange(g) && NoLoss(g)
    ensures PoseChallenge(g, c, shuffle) != Err(NothingToChallenge)
  {
    NoActionWhenWaiting(g);
    NoBlockOutside(g);
    NoExchangeOutside(g);
  }

  // ---------------------------------------------------------------------------
  // A blocked action is still paid (engine.py:259-262, 283, 288-296)

  /** As written, the next `take_action` may start while foreign aid stands blocked, and
      its `_flush_action` then pays the blocked foreign aid its 2 coins. As intended,
      settling a blocked action pays nothing. */
  lemma BlockedAidStillPaid(g: GameState)
    requires Consistent(g) && g.status == Blocked && g.lastAction == Some(ForeignAid)
    ensures TimeForAction(g)
    ensures FlushAction(g).seats[LastSeat(g)].money == g.seats[LastSeat(g)].money + 2
    ensures Settle(g).seats == g.seats
  {
    var actor := LastSeat(g);
    assert Payout(ForeignAid, actor, TargetSeat(g), actor) == 2;
  }

  // ---------------------------------------------------------------------------
  // `_clear_action` does not forget the challenger (engine.py:302-308)

  /** `_clear_action` as written: it resets a `challenge_loser` field that does not
      exist, so the challenger stays recorded. */
  function ClearActionAsWritten(g: GameState): (r: GameState)
    ensures r.status == Ready && r.lastAction.None? && r.lastTarget.None?
    ensures r.blocker.None? && r.blockedWith.None?
    ensures r.challenger == g.challenger
    ensures r.seats == g.seats && r.deck == g.deck && r.turn == g.turn
  {
    g.(status := Ready, lastAction := None, lastTarget := None, blocker := None, blockedWith := None)
  }

  /** Nothing of a finished action is left on record. */
  predicate Forgotten(g: GameState) {
    && g.status == Ready && g.lastAction.None? && g.lastTarget.None?
    && g.challenger.None? && g.blocker.None? && g.blockedWith.None?
  }

  /** The corrected clear always forgets the whole action; the one as written does so
      exactly when nobody had challenged. */
  lemma ClearForgets(g: GameState)
    ensures Forgotten(ClearAction(g))
    ensures Forgotten(ClearActionAsWritten(g)) <==> g.challenger.None?
    ensures ClearActionAsWritten(g).(challenger := None) == ClearAction(g)
  {
  }

  // ---------------------------------------------------------------------------
  // `_challengee` can pick a player who is out (engine.py:439-443)

  /** Three seats; the middle player is out. The first player claimed a tax and the
      turn has passed to the third, who challenges. */
  function OutBetween(): (g: GameState)
    ensures |g.seats| == 3 && g.turn == 2 && g.status == Challenged
  {
    var a := Player("a", [Card(Duke, false), Card(Captain, false)], 2);
    var b := Player("b", [Card(Duke, true), Card(Contessa, true)], 0);
    var c := Player("c", [Card(Assassin, false), Card(Ambassador, false)], 2);
    GameState(Challenged, Some(Tax), None, Some("c"), None, None, [], [a, b, c], 2)
  }

  /** There, as written, the challenge is put to the player who is out, the last entry of
      the rotation, while the actor who claimed the tax is the first seat, the last
      live player, which is whom the corrected lookup names. */
  lemma ChallengeeAsWrittenPicksOut()
    ensures ChallengeeAsWritten(OutBetween()) == Some(1) && IsOut(OutBetween().seats[1])
    ensures Challengee(OutBetween()) == Some(0) && IsLive(OutBetween().seats[0])
  {
    var g := OutBetween();
    assert LiveCount(g.seats[1].cards) == 0 by {
      assert g.seats[1].cards[1..][1..] == [];
    }
    assert LiveCount(g.seats[0].cards) == 2 by {
      assert g.seats[0].cards[1..][1..] == [];
    }
    var rot := Order(g);
    assert rot == [g.seats[2], g.seats[0], g.seats[1]];
    LastLiveIs(rot, 1);
    assert Wrap(3, 2, 1) == 0;
    assert Wrap(3, 2, 2) == 1;
  }

  /** The corrected lookup names a live player whenever a claim is challenged. */
  lemma ChallengeeIsLive(g: GameState)
    requires Consistent(g) && g.status == Challenged
    ensures Challengee(g).Some? && IsLive(g.seats[Challengee(g).value])
  {
  }

  // ---------------------------------------------------------------------------
  // A player who is out may still challenge (engine.py:377-388)

  /** A challenger who is out and loses the challenge owes a card they do not have:
      `lose_challenge` refuses every card, and no other verb accepts that stage. */
  lemma OutChallengerIsStuck(g: GameState)
    requires Consistent(g) && (g.status == ChallengeLost || g.status == BlockChallengeLost)
    requires g.challenger.Some? && Known(g.seats, g.challenger.value)
    requires IsOut(g.seats[ChallengerSeat(g)])
    ensures Stuck(g)
  {
    NoActionWhenWaiting(g);
    NoBlockOutside(g);
    if g.lastAction != Some(Exchange) {
      NoExchangeOutside(g);
    }
    forall p: nat, n: CardName | p < |g.seats|
      ensures LoseChallenge(g, p, n).Err?
    {
      if p == ChallengerSeat(g) {
        OutHoldsNone(g.seats[p], n);
      }
    }
  }

  // ---------------------------------------------------------------------------
  // A steal may take money the target does not have (engine.py:295-296)

  /** Completing a steal takes 2 coins from its target whatever they hold, so a target
      with fewer than 2 coins ends below zero. */
  lemma StealOverdraws(g: GameState)
    requires g.turn < |g.seats| && g.lastAction == Some(Steal)
    requires TargetSeat(g).Some? && TargetSeat(g).value != LastSeat(g)
    requires g.seats[TargetSeat(g).value].money < 2
    ensures FlushAction(g).seats[TargetSeat(g).value].money == g.seats[TargetSeat(g).value].money - 2 < 0
  {
  }

  /** A player below zero fails the funds check of every action, income included, whose
      cost is 0 (engine.py:270-272): once such a player is next, no action is accepted. */
  lemma OverdrawnCannotAct(g: GameState)
    requires Consistent(g) && g.seats[NextSeat(g)].money < 0
    ensures NoAction(g)
  {
    forall p: nat, alias: string, t: Option<nat> | p < |g.seats| && (t.Some? ==> t.value < |g.seats|)
      ensures TakeAction(g, p, alias, t).Err?
    {
      assert !Admissible(g, p, alias, t);
    }
  }

  /** So a game that is READY for an overdrawn player's turn cannot go on. */
  lemma OverdrawnIsStuck(g: GameState)
    requires Consistent(g) && g.status == Ready && g.seats[NextSeat(g)].money < 0
    ensures Stuck(g)
  {
    OverdrawnCannotAct(g);
    NoBlockOutside(g);
    NoExchangeOutside(g);
  }
}

=== FILE: players.dfy ===
/** A player's hand and the card helpers the engine uses on it. */
module Players {
  import opened Wrappers
  import opened Cards

  /** A seat at the table: an opaque username, an ordered hand and a money balance.
      Money is an unbounded integer; nothing in the engine keeps it non-negative. */
  datatype Player = Player(username: string, cards: seq<Card>, money: int)

  /** Number of cards not yet flipped (`len(live_cards())`). */
  function LiveCount(cards: seq<Card>): nat {
    if |cards| == 0 then 0
    else (if cards[0].eliminated then 0 else 1) + LiveCount(cards[1..])
  }

  /** How many live copies of a role the hand holds (`live_card_names().count`). */
  function LiveCopies(cards: seq<Card>, name: CardName): nat {
    multiset(cards)[Card(name, false)]
  }

  /** A player is out once every card is flipped. */
  predicate IsOut(p: Player) {
    LiveCount(p.cards) == 0
  }

  predicate IsLive(p: Player) {
    !IsOut(p)
  }

  predicate OneCard(p: Player) {
    LiveCount(p.cards) == 1
  }

  /** Position of the first live card of the given role (`find_live_card`). */
  function FindLiveCard(cards: seq<Card>, name: CardName): (r: Option<nat>)
    ensures r.Some? ==> r.value < |cards| && cards[r.value] == Card(name, false)
    ensures r.Some? ==> forall j :: 0 <= j < r.value ==> cards[j] != Card(name, false)
    ensures r.None? <==> Card(name, false) !in cards
  {
    if |cards| == 0 then None
    else if cards[0] == Card(name, false) then Some(0)
    else
      assert cards == [cards[0]] + cards[1..];
      match FindLiveCard(cards[1..], name)
      case None => None
      case Some(j) => Some(j + 1)
  }

  /** Position of the first live card of any role (`live_cards()[0]`). */
  function FirstLiveCard(cards: seq<Card>): (r: Option<nat>)
    ensures r.Some? ==> r.value < |cards| && !cards[r.value].eliminated
    ensures r.Some? ==> forall j :: 0 <= j < r.value ==> cards[j].eliminated
    ensures r.None? <==> LiveCount(cards) == 0
  {
    if |cards| == 0 then None
    else if !cards[0].eliminated then Some(0)
    else
      match FirstLiveCard(cards[1..])
      case None => None
      case Some(j) => Some(j + 1)
  }

  /** Deletes the first live card of the given role; fails when there is none. */
  function RemoveCard(cards: seq<Card>, name: CardName): (r: Option<seq<Card>>)
    ensures r.Some? <==> Card(name, false) in cards
    ensures r.Some? ==> |r.value| == |cards| - 1
    ensures r.Some? ==> LiveCount(r.value) == LiveCount(cards) - 1
  {
    match FindLiveCard(cards, name)
    case None => None
    case Some(i) =>
      CutLive(cards, i);
      Some(cards[..i] + cards[i + 1..])
  }

  /** Removing a card takes exactly that card out of the hand. */
  lemma RemoveCardTakesOne(cards: seq<Card>, name: CardName)
    requires Card(name, false) in cards
    ensures multiset(RemoveCard(cards, name).value) + multiset{Card(name, false)} == multiset(cards)
  {
    CutLive(cards, FindLiveCard(cards, name).value);
  }

  /** Cutting a live card out of a hand takes one card and one live card away. */
  lemma CutLive(cards: seq<Card>, i: nat)
    requires i < |cards| && !cards[i].eliminated
    ensures multiset(cards[..i] + cards[i + 1..]) + multiset{cards[i]} == multiset(cards)
    ensures LiveCount(cards[..i] + cards[i + 1..]) == LiveCount(cards) - 1
  {
    assert cards == cards[..i] + [cards[i]] + cards[i + 1..];
    LiveCountAppend(cards[..i], [cards[i]]);
    LiveCountAppend(cards[..i] + [cards[i]], cards[i + 1..]);
    LiveCountAppend(cards[..i], cards[i + 1..]);
  }

  /** Flips the card at position `i` face up for good. */
  function FlipAt(cards: seq<Card>, i: nat): (r: seq<Card>)
    requires i < |cards|
  {
    cards[i := Card(cards[i].name, true)]
  }

  lemma {:induction false} LiveCountAppend(a: seq<Card>, b: seq<Card>)
    ensures LiveCount(a + b) == LiveCount(a) + LiveCount(b)
  {
    if |a| > 0 {
      assert (a + b)[1..] == a[1..] + b;
      LiveCountAppend(a[1..], b);
    } else {
      assert a + b == b;
    }
  }

  /** A hand has a live card exactly when its live count is positive. */
  lemma {:induction false} LiveCountPositive(cards: seq<Card>)
    ensures LiveCount(cards) > 0 <==> exists i :: 0 <= i < |cards| && !cards[i].eliminated
  {
    if |cards| > 0 && cards[0].eliminated {
      var rest := cards[1..];
      LiveCountPositive(rest);
      assert LiveCount(cards) == LiveCount(rest);
      if LiveCount(rest) > 0 {
        var i :| 0 <= i < |rest| && !rest[i].eliminated;
        assert !cards[i + 1].eliminated;
      }
      if i :| 0 <= i < |cards| && !cards[i].eliminated {
        assert i > 0 && !rest[i - 1].eliminated;
      }
    } else if |cards| > 0 {
      assert LiveCount(cards) > 0 && !cards[0].eliminated;
    }
  }

  /** Flipping a live card removes exactly one live card and nothing else about the hand. */
  lemma {:induction false} FlipAtLiveCount(cards: seq<Card>, i: nat)
    requires i < |cards| && !cards[i].eliminated
    ensures |FlipAt(cards, i)| == |cards|
    ensures LiveCount(FlipAt(cards, i)) == LiveCount(cards) - 1
    ensures forall j :: 0 <= j < |cards| ==> FlipAt(cards, i)[j].name == cards[j].name
  {
    var r := FlipAt(cards, i);
    assert cards == cards[..i] + [cards[i]] + cards[i + 1..];
    assert r == cards[..i] + [r[i]] + cards[i + 1..];
    LiveCountAppend(cards[..i], [cards[i]]);
    LiveCountAppend(cards[..i] + [cards[i]], cards[i + 1..]);
    LiveCountAppend(cards[..i], [r[i]]);
    LiveCountAppend(cards[..i] + [r[i]], cards[i + 1..]);
  }
}

=== FILE: seqs.dfy ===
/** Rotations of sequences: the only way the source reorders its player list. */
module Seqs {
  /** `s` rotated left by `k`: the source's `players[1:] + [players[0]]`, applied `k` times. */
  function Rotation<T>(s: seq<T>, k: nat): (r: seq<T>)
    requires k <= |s|
    ensures |r| == |s|
    ensures forall j :: 0 <= j < |s| - k ==> r[j] == s[k + j]
    ensures forall j :: |s| - k <= j < |s| ==> r[j] == s[j - (|s| - k)]
  {
    s[k..] + s[..k]
  }

  ghost predicate IsRotationOf<T>(a: seq<T>, b: seq<T>) {
    exists k :: 0 <= k <= |b| && a == Rotation(b, k)
  }

  /** Rotating a rotation is again a rotation of the original. */
  lemma RotationOfRotation<T>(s: seq<T>, k: nat, m: nat)
    requires k <= |s| && m <= |s|
    ensures IsRotationOf(Rotation(s, m), Rotation(s, k))
  {
    var n := |s|;
    var d := if k <= m then m - k else n - k + m;
    assert d <= n;
    var a := Rotation(Rotation(s, k), d);
    assert |a| == n;
    forall j | 0 <= j < n
      ensures a[j] == Rotation(s, m)[j]
    {
    }
    assert a == Rotation(s, m);
  }
}

=== FILE: setup.dfy ===
/** Starting a game (`create`): names are cleaned, the pool is shuffled and each player
    is dealt two cards from the end of it. */
module Setup {
  import opened Wrappers
  import opened Cards
  import opened Players
  import opened State
  import opened Engine

  /** `lstrip('@')`: the name with every leading '@' removed. */
  function StripAt(u: string): string {
    if |u| > 0 && u[0] == '@' then StripAt(u[1..]) else u
  }

  /** The cleaned name is the longest suffix of the name that does not begin with '@':
      everything cut off is '@'. */
  lemma {:induction false} StripAtSuffix(u: string)
    ensures |StripAt(u)| <= |u| && StripAt(u) == u[|u| - |StripAt(u)|..]
    ensures forall i :: 0 <= i < |u| - |StripAt(u)| ==> u[i] == '@'
    ensures |StripAt(u)| > 0 ==> StripAt(u)[0] != '@'
  {
    if |u| > 0 && u[0] == '@' {
      StripAtSuffix(u[1..]);
      forall i | 0 < i < |u| - |StripAt(u)|
        ensures u[i] == '@'
      {
        assert u[1..][i - 1] == u[i];
      }
    }
  }

  /** Stripping twice is stripping once. */
  lemma StripAtIdempotent(u: string)
    ensures StripAt(StripAt(u)) == StripAt(u)
  {
    StripAtSuffix(u);
  }

  /** A mention and a bare name denote the same player. */
  lemma {:induction false} StripAtMention(u: string)
    ensures StripAt("@" + u) == StripAt(u)
  {
    assert ("@" + u)[1..] == u;
  }

  /** Every card held in the hands of a seating. */
  function HandCards(seats: seq<Player>): multiset<Card> {
    if |seats| == 0 then multiset{} else multiset(seats[0].cards) + HandCards(seats[1..])
  }

  /** Deals two cards to each name in turn, popping them from the end of `d`; the deck
      keeps the front. */
  function Deal(names: seq<string>, d: seq<Card>): (r: (seq<Player>, seq<Card>))
    requires 2 * |names| <= |d|
    ensures |r.0| == |names| && r.1 == d[..|d| - 2 * |names|]
  {
    if |names| == 0 then ([], d)
    else
      var n := |d|;
      var rest := Deal(names[1..], d[..n - 2]);
      ([Player(StripAt(names[0]), [d[n - 1], d[n - 2]], 2)] + rest.0, rest.1)
  }

  /** Where each player's cards come from: the i-th player, under the cleaned i-th name
      and with two coins, holds the cards at positions n-1-2i and n-2-2i of the shuffled
      pool, the first popped first. */
  lemma {:induction false} DealAt(names: seq<string>, d: seq<Card>, i: nat)
    requires 2 * |names| <= |d| && i < |names|
    ensures Deal(names, d).0[i] == Player(StripAt(names[i]), [d[|d| - 1 - 2 * i], d[|d| - 2 - 2 * i]], 2)
  {
    if i > 0 {
      var n := |d|;
      var e := d[..n - 2];
      DealAt(names[1..], e, i - 1);
      assert names[1..][i - 1] == names[i];
      assert e[|e| - 1 - 2 * (i - 1)] == d[n - 1 - 2 * i];
      assert e[|e| - 2 - 2 * (i - 1)] == d[n - 2 - 2 * i];
      assert Deal(names, d).0[i] == Deal(names[1..], e).0[i - 1];
    }
  }

  /** Popping two cards off the end of a deck splits it into its front and those two. */
  lemma PopTwo(d: seq<Card>)
    requires |d| >= 2
    ensures multiset(d) == multiset(d[..|d| - 2]) + multiset([d[|d| - 1], d[|d| - 2]])
  {
    var n := |d|;
    assert d == d[..n - 2] + [d[n - 2], d[n - 1]];
  }

  /** Dealing moves cards from the deck into the hands and loses none. */
  lemma {:induction false} DealConserves(names: seq<string>, d: seq<Card>)
    requires 2 * |names| <= |d|
    ensures multiset(Deal(names, d).1) + HandCards(Deal(names, d).0) == multiset(d)
  {
    if |names| > 0 {
      var n := |d|;
      var e := d[..n - 2];
      DealConserves(names[1..], e);
      var seats := Deal(names, d).0;
      assert seats[1..] == Deal(names[1..], e).0;
      assert HandCards(seats) == multiset(seats[0].cards) + HandCards(seats[1..]);
      PopTwo(d);
    }
  }

  /** Each player is dealt two cards. */
  lemma {:induction false} DealHandTotal(names: seq<string>, d: seq<Card>)
    requires 2 * |names| <= |d|
    ensures HandTotal(Deal(names, d).0) == 2 * |names|
  {
    if |names| > 0 {
      var n := |d|;
      var e := d[..n - 2];
      DealHandTotal(names[1..], e);
      assert Deal(names, d).0[1..] == Deal(names[1..], e).0;
    }
  }

  /** `create`: a fresh game for the players named, in the order given, the first of
      them to move. The source pops two cards per player from a pool of fifteen without
      a check, so it can seat at most seven. */
  function Create(usernames: seq<string>, shuffle: Shuffle): (r: GameState)
    requires 2 * |usernames| <= PoolSize && IsShuffle(shuffle)
    ensures r.status == Ready && r.lastAction.None? && r.lastTarget.None?
    ensures r.challenger.None? && r.blocker.None? && r.blockedWith.None? && r.turn == 0
    ensures |r.seats| == |usernames|
    ensures forall i :: 0 <= i < |r.seats| ==>
      && r.seats[i].username == StripAt(usernames[i]) && r.seats[i].money == 2
      && |r.seats[i].cards| == 2 && LiveCount(r.seats[i].cards) == 2
    ensures |r.deck| == PoolSize - 2 * |usernames| && forall c :: c in r.deck ==> !c.eliminated
  {
    var d := shuffle(Pool());
    ShuffleLength(shuffle, Pool());
    var dealt := Deal(usernames, d);
    forall c | c in d
      ensures !c.eliminated
    {
      assert c in multiset(Pool());
    }
    forall i | 0 <= i < |dealt.0|
      ensures dealt.0[i].username == StripAt(usernames[i]) && dealt.0[i].money == 2
      ensures |dealt.0[i].cards| == 2 && LiveCount(dealt.0[i].cards) == 2
    {
      DealAt(usernames, d, i);
      var cs := dealt.0[i].cards;
      assert cs[0] in d && cs[1] in d;
      assert LiveCount(cs[1..][1..]) == 0;
    }
    GameState(Ready, None, None, None, None, None, dealt.1, dealt.0, 0)
  }

  /** A new game holds the whole pool: every card is in the deck or in a hand. */
  lemma CreateHoldsPool(usernames: seq<string>, shuffle: Shuffle)
    requires 2 * |usernames| <= PoolSize && IsShuffle(shuffle)
    ensures multiset(Create(usernames, shuffle).deck) + HandCards(Create(usernames, shuffle).seats) == multiset(Pool())
    ensures CardTotal(Create(usernames, shuffle)) == PoolSize
  {
    ShuffleLength(shuffle, Pool());
    DealConserves(usernames, shuffle(Pool()));
    DealHandTotal(usernames, shuffle(Pool()));
  }

  /** A game for at least one player whose cleaned names are distinct satisfies the
      invariant every verb relies on. */
  lemma CreateConsistent(usernames: seq<string>, shuffle: Shuffle)
    requires 2 * |usernames| <= PoolSize && IsShuffle(shuffle)
    requires 0 < |usernames|
    requires forall i, j :: 0 <= i < j < |usernames| ==> StripAt(usernames[i]) != StripAt(usernames[j])
    ensures Consistent(Create(usernames, shuffle))
  {
    var g := Create(usernames, shuffle);
    assert IsLive(g.seats[0]);
  }
}

=== FILE: state.dfy ===
/** The per-room game state: seating and rotation, the deck, and the pending-action record. */
module State {
  import opened Wrappers
  import opened Seqs
  import opened Cards
  import opened Players

  /** The stages of the action/challenge/block state machine. */
  datatype Status =
    | Ready
    | Acted
    | Challenged
    | ChallengeLost
    | ChallengeLossResolved
    | Blocked
    | BlockChallenged
    | BlockChallengeWon
    | BlockChallengeLost
    | BlockChallengeLossResolved
    | CardsTaken
  {
    /** Stages in which a challenger has been recorded and is still needed. */
    predicate RecordsChallenger() {
      this == Challenged || this == ChallengeLost || this == BlockChallenged || this == BlockChallengeLost
    }

    /** Stages in which the action's claim to a role is being contested. */
    predicate ContestsClaim() {
      this == Challenged || this == ChallengeLost
    }

    /** Stages in which a block is on the table. */
    predicate RecordsBlock() {
      this == Blocked || this == BlockChallenged || this == BlockChallengeWon || this == BlockChallengeLost
    }
  }

  /** The rotation `players` of the source (next player first) is kept as the fixed
      seating `seats` plus the seat `turn` now at its head: every change the source makes
      to that list is a rotation, so `Order` below is exactly the source's list. */
  datatype GameState = GameState(
    status: Status,
    lastAction: Option<Action>,
    lastTarget: Option<string>,
    challenger: Option<string>,
    blocker: Option<string>,
    blockedWith: Option<CardName>,
    deck: seq<Card>,
    seats: seq<Player>,
    turn: nat)

  /** The source's `players` list: the seat whose turn it is first. */
  function Order(g: GameState): seq<Player>
    requires g.turn <= |g.seats|
  {
    Rotation(g.seats, g.turn)
  }

  /** Seat index reached `k` places after seat `from`, wrapping around the table. */
  function Wrap(n: nat, from: nat, k: nat): (r: nat)
    requires from < n && k < n
    ensures r < n
  {
    if from + k < n then from + k else from + k - n
  }

  /** The seat after seat `i` (`players[1:] + [players[0]]` moves the head there). */
  function SeatAfter(n: nat, i: nat): (r: nat)
    requires i < n
    ensures r < n
  {
    if i + 1 < n then i + 1 else 0
  }

  predicate HasLive(seats: seq<Player>) {
    exists i :: 0 <= i < |seats| && IsLive(seats[i])
  }

  predicate Known(seats: seq<Player>, u: string) {
    exists i :: 0 <= i < |seats| && seats[i].username == u
  }

  predicate DistinctNames(seats: seq<Player>) {
    forall i, j :: 0 <= i < j < |seats| ==> seats[i].username != seats[j].username
  }

  /** The seat of the player with this username (`get_player`). */
  function SeatOf(seats: seq<Player>, u: string): (r: Option<nat>)
    ensures r.Some? ==> r.value < |seats| && seats[r.value].username == u
    ensures r.Some? <==> Known(seats, u)
  {
    if |seats| == 0 then None
    else if seats[0].username == u then Some(0)
    else
      match SeatOf(seats[1..], u)
      case None =>
        assert !Known(seats, u) by {
          if i :| 0 <= i < |seats| && seats[i].username == u {
            assert seats[1..][i - 1].username == u;
          }
        }
        None
      case Some(j) => Some(j + 1)
  }

  /** With distinct usernames a seat is found by its own name. */
  lemma SeatOfOwnName(seats: seq<Player>, i: nat)
    requires DistinctNames(seats) && i < |seats|
    ensures SeatOf(seats, seats[i].username) == Some(i)
  {
  }

  /** Index of the first live player, if any. */
  function FirstLive(ps: seq<Player>): (r: Option<nat>)
    ensures r.Some? ==> r.value < |ps| && IsLive(ps[r.value])
    ensures r.Some? ==> forall j :: 0 <= j < r.value ==> IsOut(ps[j])
    ensures r.None? <==> forall j :: 0 <= j < |ps| ==> IsOut(ps[j])
  {
    if |ps| == 0 then None
    else if IsLive(ps[0]) then Some(0)
    else
      match FirstLive(ps[1..])
      case None =>
        assert forall j :: 0 < j < |ps| ==> ps[j] == ps[1..][j - 1];
        None
      case Some(j) => Some(j + 1)
  }

  /** Index of the last live player, if any (`remaining_players()[-1]`). */
  function LastLive(ps: seq<Player>): (r: Option<nat>)
    ensures r.Some? ==> r.value < |ps| && IsLive(ps[r.value])
    ensures r.Some? ==> forall j :: r.value < j < |ps| ==> IsOut(ps[j])
    ensures r.None? <==> forall j :: 0 <= j < |ps| ==> IsOut(ps[j])
  {
    if |ps| == 0 then None
    else if IsLive(ps[|ps| - 1]) then Some(|ps| - 1)
    else LastLive(ps[..|ps| - 1])
  }

  /** A live entry with only out players after it is what `LastLive` finds. */
  lemma LastLiveIs(ps: seq<Player>, k: nat)
    requires k < |ps| && IsLive(ps[k])
    requires forall j :: k < j < |ps| ==> IsOut(ps[j])
    ensures LastLive(ps) == Some(k)
  {
  }

  /** The searches see only who is live. */
  lemma {:induction false} FirstLiveCongruent(a: seq<Player>, b: seq<Player>)
    requires |a| == |b| && forall j :: 0 <= j < |a| ==> (IsLive(a[j]) <==> IsLive(b[j]))
    ensures FirstLive(a) == FirstLive(b)
  {
    if |a| > 0 && !IsLive(a[0]) {
      FirstLiveCongruent(a[1..], b[1..]);
    }
  }

  lemma {:induction false} LastLiveCongruent(a: seq<Player>, b: seq<Player>)
    requires |a| == |b| && forall j :: 0 <= j < |a| ==> (IsLive(a[j]) <==> IsLive(b[j]))
    ensures LastLive(a) == LastLive(b)
  {
    if |a| > 0 && !IsLive(a[|a| - 1]) {
      LastLiveCongruent(a[..|a| - 1], b[..|b| - 1]);
    }
  }

  /** The name lookup sees only the names. */
  lemma {:induction false} SeatOfCongruent(a: seq<Player>, b: seq<Player>, u: string)
    requires |a| == |b| && forall j :: 0 <= j < |a| ==> a[j].username == b[j].username
    ensures SeatOf(a, u) == SeatOf(b, u)
  {
    if |a| > 0 && a[0].username != u {
      SeatOfCongruent(a[1..], b[1..], u);
    }
  }

  /** How many places after `from` the first live seat lies (0 when nobody is live). */
  function LiveOffset(seats: seq<Player>, from: nat): (k: nat)
    requires from < |seats|
    ensures k < |seats|
    ensures forall j :: 0 <= j < k ==> IsOut(Rotation(seats, from)[j])
    ensures HasLive(seats) ==> IsLive(Rotation(seats, from)[k])
  {
    RotationHasLive(seats, from);
    match FirstLive(Rotation(seats, from))
    case Some(k) => k
    case None => 0
  }

  /** Rotating the table neither adds nor removes live players. */
  lemma RotationHasLive(seats: seq<Player>, from: nat)
    requires from < |seats|
    ensures HasLive(seats) <==> HasLive(Rotation(seats, from))
  {
    var rot := Rotation(seats, from);
    if HasLive(seats) {
      var i :| 0 <= i < |seats| && IsLive(seats[i]);
      var j := if i >= from then i - from else i + |seats| - from;
      assert rot[j] == seats[i];
    }
    if HasLive(rot) {
      var j :| 0 <= j < |rot| && IsLive(rot[j]);
      assert rot[j] == seats[Wrap(|seats|, from, j)];
    }
  }

  /** The first live seat at or after `from`: the seat the source's loop stops on when
      it keeps rotating the head of the table to the back while that head is out. */
  function FirstLiveFrom(seats: seq<Player>, from: nat): (r: nat)
    requires from < |seats|
    ensures r < |seats|
    ensures HasLive(seats) ==> IsLive(seats[r])
    ensures exists k: nat :: (k < |seats| && r == Wrap(|seats|, from, k) &&
      forall j :: 0 <= j < k ==> IsOut(seats[Wrap(|seats|, from, j)]))
  {
    var k := LiveOffset(seats, from);
    RotationAt(seats, from, k);
    forall j | 0 <= j < k
      ensures IsOut(seats[Wrap(|seats|, from, j)])
    {
      RotationAt(seats, from, j);
    }
    Wrap(|seats|, from, k)
  }

  /** The seat of `next_player()`: the first live player in rotation order. */
  function NextSeat(g: GameState): (r: nat)
    requires g.turn < |g.seats|
    ensures r < |g.seats|
    ensures HasLive(g.seats) ==> IsLive(g.seats[r])
  {
    FirstLiveFrom(g.seats, g.turn)
  }

  /** The seat of `last_player()`: the last live player in rotation order. */
  function LastSeat(g: GameState): (r: nat)
    requires g.turn < |g.seats|
    ensures r < |g.seats|
    ensures HasLive(g.seats) ==> IsLive(g.seats[r])
    ensures HasLive(g.seats) ==> exists k: nat :: (k < |g.seats| && r == Wrap(|g.seats|, g.turn, k) &&
      forall j :: k < j < |g.seats| ==> IsOut(Order(g)[j]))
  {
    var rot := Order(g);
    RotationHasLive(g.seats, g.turn);
    match LastLive(rot)
    case Some(k) =>
      RotationAt(g.seats, g.turn, k);
      Wrap(|g.seats|, g.turn, k)
    case None => g.turn
  }

  /** The players still holding a live card, in the order given (`remaining_players`). */
  function Remaining(ps: seq<Player>): (r: seq<Player>)
    ensures |r| <= |ps|
    ensures forall p :: p in r ==> p in ps && IsLive(p)
  {
    if |ps| == 0 then []
    else if IsLive(ps[0]) then [ps[0]] + Remaining(ps[1..])
    else Remaining(ps[1..])
  }

  /** The username of the only player left with a live card, if exactly one is. */
  function Winner(g: GameState): Option<string>
    requires g.turn <= |g.seats|
  {
    var rem := Remaining(Order(g));
    if |rem| == 1 then Some(rem[0].username) else None
  }

  /** Exactly one entry of `ps` is live, and it is entry `i`. */
  ghost predicate OnlyLive(ps: seq<Player>, i: nat) {
    && i < |ps|
    && IsLive(ps[i])
    && forall j :: 0 <= j < |ps| && j != i ==> IsOut(ps[j])
  }

  /** Number of cards held in all hands together. */
  function HandTotal(seats: seq<Player>): nat {
    if |seats| == 0 then 0 else |seats[0].cards| + HandTotal(seats[1..])
  }

  /** Deck plus all hands: 15 at the deal, and kept by every move except `keep_cards`. */
  function CardTotal(g: GameState): nat {
    |g.deck| + HandTotal(g.seats)
  }

  /** Replacing one seat changes the hand total by the change in that seat's hand size. */
  lemma {:induction false} HandTotalUpdate(seats: seq<Player>, i: nat, p: Player)
    requires i < |seats|
    ensures HandTotal(seats[i := p]) == HandTotal(seats) - |seats[i].cards| + |p.cards|
  {
    if i > 0 {
      assert seats[i := p][1..] == seats[1..][i - 1 := p];
      HandTotalUpdate(seats[1..], i - 1, p);
    }
  }

  /** Total money on the table. */
  function TotalMoney(seats: seq<Player>): int {
    if |seats| == 0 then 0 else seats[0].money + TotalMoney(seats[1..])
  }

  lemma {:induction false} TotalMoneyUpdate(seats: seq<Player>, i: nat, p: Player)
    requires i < |seats|
    ensures TotalMoney(seats[i := p]) == TotalMoney(seats) - seats[i].money + p.money
  {
    if i > 0 {
      assert seats[i := p][1..] == seats[1..][i - 1 := p];
      TotalMoneyUpdate(seats[1..], i - 1, p);
    }
  }

  /** The usernames of a list of players, in the order of the list. */
  function Names(seats: seq<Player>): (r: seq<string>)
    ensures |r| == |seats|
    ensures forall i :: 0 <= i < |seats| ==> r[i] == seats[i].username
  {
    seq(|seats|, i requires 0 <= i < |seats| => seats[i].username)
  }

  /** Naming commutes with rotating the table. */
  lemma NamesRotation(seats: seq<Player>, k: nat)
    requires k <= |seats|
    ensures Names(Rotation(seats, k)) == Rotation(Names(seats), k)
  {
  }

  /** Two seatings with the same players in the same seats, each live or out alike. */
  predicate SameLiveness(a: seq<Player>, b: seq<Player>) {
    && |a| == |b|
    && forall i :: 0 <= i < |a| ==> a[i].username == b[i].username && (IsLive(a[i]) <==> IsLive(b[i]))
  }

  /** Two seatings that differ at most in money. */
  predicate SameHands(a: seq<Player>, b: seq<Player>) {
    && |a| == |b|
    && forall i :: 0 <= i < |a| ==> a[i].username == b[i].username && a[i].cards == b[i].cards
  }

  /** Everything that depends only on names and on who is still in agrees across
      seatings with the same liveness. */
  lemma SameLivenessAgree(a: seq<Player>, b: seq<Player>)
    requires SameLiveness(a, b)
    ensures HasLive(a) <==> HasLive(b)
    ensures DistinctNames(a) <==> DistinctNames(b)
    ensures forall u :: Known(a, u) <==> Known(b, u)
    ensures forall u :: SeatOf(a, u) == SeatOf(b, u)
  {
    SameLivenessHasLive(a, b);
    forall u
      ensures SeatOf(a, u) == SeatOf(b, u)
    {
      SeatOfCongruent(a, b, u);
    }
  }

  lemma SameLivenessHasLive(a: seq<Player>, b: seq<Player>)
    requires SameLiveness(a, b)
    ensures HasLive(a) <==> HasLive(b)
  {
    if HasLive(a) {
      var i :| 0 <= i < |a| && IsLive(a[i]);
      assert IsLive(b[i]);
    }
    if HasLive(b) {
      var i :| 0 <= i < |b| && IsLive(b[i]);
      assert IsLive(a[i]);
    }
  }

  lemma SameLivenessFirstLive(a: seq<Player>, b: seq<Player>, from: nat)
    requires SameLiveness(a, b) && from < |a|
    ensures FirstLiveFrom(a, from) == FirstLiveFrom(b, from)
  {
    FirstLiveCongruent(Rotation(a, from), Rotation(b, from));
  }

  lemma LastSeatSameLiveness(g: GameState, h: GameState)
    requires g.turn < |g.seats| && h.turn == g.turn && SameLiveness(g.seats, h.seats)
    ensures LastSeat(g) == LastSeat(h)
  {
    LastLiveCongruent(Order(g), Order(h));
    SameLivenessAgree(g.seats, h.seats);
  }

  lemma {:induction false} HandTotalSame(a: seq<Player>, b: seq<Player>)
    requires SameHands(a, b)
    ensures HandTotal(a) == HandTotal(b)
  {
    if |a| > 0 {
      HandTotalSame(a[1..], b[1..]);
    }
  }

  /** Entry `j` of the rotation starting at seat `from` sits at seat `Wrap(n, from, j)`. */
  lemma RotationAt(seats: seq<Player>, from: nat, j: nat)
    requires from < |seats| && j < |seats|
    ensures Rotation(seats, from)[j] == seats[Wrap(|seats|, from, j)]
  {
  }

  /** The seat arithmetic of a turn advance: stepping `k` places from the seat after `a`
      and then `n - 1 - k` places more comes back to `a`, and each step beyond that
      lands where stepping from the seat after `a` would. */
  lemma WrapAdvance(n: nat, a: nat, from: nat, k: nat, j: nat)
    requires a < n && from == (if a + 1 < n then a + 1 else 0)
    requires k < n && n - 1 - k <= j < n
    ensures j == n - 1 - k ==> Wrap(n, Wrap(n, from, k), j) == a
    ensures j > n - 1 - k ==> Wrap(n, Wrap(n, from, k), j) == Wrap(n, from, j - (n - 1 - k) - 1)
  {
  }

  /** Every seat the advance skipped lies after the actor in the new rotation. */
  lemma AdvanceTailOut(seats: seq<Player>, a: nat, from: nat, j: nat)
    requires a < |seats| && from == (if a + 1 < |seats| then a + 1 else 0)
    requires |seats| - 1 - LiveOffset(seats, from) < j < |seats|
    ensures IsOut(Rotation(seats, FirstLiveFrom(seats, from))[j])
  {
    var n := |seats|;
    var k := LiveOffset(seats, from);
    var j' := j - (n - 1 - k) - 1;
    WrapAdvance(n, a, from, k, j);
    RotationAt(seats, Wrap(n, from, k), j);
    RotationAt(seats, from, j');
  }

  /** After the actor at the head rotates to the back and the eliminated players after
      it are skipped, the actor is the last live player of the new rotation: this is why
      `last_player()` names whoever took the pending action. */
  lemma AdvanceKeepsActorLast(g: GameState)
    requires g.turn < |g.seats| && IsLive(g.seats[g.turn])
    ensures LastSeat(g.(turn := FirstLiveFrom(g.seats, SeatAfter(|g.seats|, g.turn)))) == g.turn
  {
    var n := |g.seats|;
    var a := g.turn;
    var from := SeatAfter(n, a);
    var k := LiveOffset(g.seats, from);
    var t := FirstLiveFrom(g.seats, from);
    var rot := Order(g.(turn := t));
    var pos := n - 1 - k;
    WrapAdvance(n, a, from, k, pos);
    RotationAt(g.seats, t, pos);
    forall j | pos < j < n
      ensures IsOut(rot[j])
    {
      AdvanceTailOut(g.seats, a, from, j);
    }
    LastLiveIs(rot, pos);
  }

  /** Moving the head of the table to another seat only rotates the source's player list. */
  lemma TurnChangeIsRotation(g: GameState, r: GameState)
    requires g.turn < |g.seats| && r.turn < |r.seats| && |r.seats| == |g.seats|
    requires forall i :: 0 <= i < |g.seats| ==> r.seats[i].username == g.seats[i].username
    ensures IsRotationOf(Names(Order(r)), Names(Order(g)))
  {
    assert Names(r.seats) == Names(g.seats);
    NamesRotation(r.seats, r.turn);
    NamesRotation(g.seats, g.turn);
    RotationOfRotation(Names(g.seats), g.turn, r.turn);
  }

  /** When the head of the rotation is live it is the next player. */
  lemma NextSeatIsHead(g: GameState)
    requires g.turn < |g.seats|
    ensures IsLive(g.seats[g.turn]) ==> NextSeat(g) == g.turn
  {
    assert Rotation(g.seats, g.turn)[0] == g.seats[g.turn];
  }

  /** The invariant every reachable state keeps: the record of the pending action names
      players who exist, the stages that need a claim, challenger or block have one,
      the deck holds only live cards, usernames are distinct, and the head of the
      rotation is a live player. */
  predicate Consistent(g: GameState) {
    && 0 < |g.seats|
    && g.turn < |g.seats|
    && DistinctNames(g.seats)
    && HasLive(g.seats)
    && IsLive(g.seats[g.turn])
    && (g.status == Ready <==> g.lastAction.None?)
    && (g.lastAction.Some? && Targeted(g.lastAction.value) ==>
          g.lastTarget.Some? && Known(g.seats, g.lastTarget.value))
    && (g.status.RecordsChallenger() ==> g.challenger.Some? && Known(g.seats, g.challenger.value))
    && (g.status.ContestsClaim() ==> g.lastAction.Some? && Claim(g.lastAction.value).Some?)
    && (g.status.RecordsBlock() ==>
          && g.blocker.Some? && Known(g.seats, g.blocker.value) && g.blockedWith.Some?
          && g.lastAction.Some? && Blockable(g.lastAction.value))
    && (forall c :: c in g.deck ==> !c.eliminated)
    && (g.status == CardsTaken ==> LiveCount(g.seats[LastSeat(g)].cards) >= 3)
  }

  /** Nobody remains exactly when every player is out. */
  lemma {:induction false} RemainingEmpty(ps: seq<Player>)
    ensures |Remaining(ps)| == 0 <==> forall j :: 0 <= j < |ps| ==> IsOut(ps[j])
  {
    if |ps| > 0 {
      RemainingEmpty(ps[1..]);
      if forall j :: 0 <= j < |ps| ==> IsOut(ps[j]) {
        assert forall j :: 0 <= j < |ps[1..]| ==> IsOut(ps[1..][j]) by {
          forall j | 0 <= j < |ps[1..]| ensures IsOut(ps[1..][j]) { assert ps[1..][j] == ps[j + 1]; }
        }
      } else if IsOut(ps[0]) {
        var j :| 0 <= j < |ps| && !IsOut(ps[j]);
        assert !IsOut(ps[1..][j - 1]);
      }
    }
  }

  /** Exactly one player remains exactly when exactly one entry is live, and then the
      one remaining is that entry. */
  lemma {:induction false} RemainingOnly(ps: seq<Player>, i: nat)
    requires OnlyLive(ps, i)
    ensures Remaining(ps) == [ps[i]]
  {
    if i == 0 {
      RemainingEmpty(ps[1..]);
      assert forall j :: 0 <= j < |ps[1..]| ==> IsOut(ps[1..][j]) by {
        forall j | 0 <= j < |ps[1..]| ensures IsOut(ps[1..][j]) { assert ps[1..][j] == ps[j + 1]; }
      }
    } else {
      assert OnlyLive(ps[1..], i - 1) by {
        forall j | 0 <= j < |ps[1..]| && j != i - 1 ensures IsOut(ps[1..][j]) { assert ps[1..][j] == ps[j + 1]; }
      }
      RemainingOnly(ps[1..], i - 1);
    }
  }

  lemma {:induction false} RemainingOneWitness(ps: seq<Player>) returns (i: nat)
    requires |Remaining(ps)| == 1
    ensures OnlyLive(ps, i)
  {
    if IsLive(ps[0]) {
      RemainingEmpty(ps[1..]);
      i := 0;
      forall j | 0 < j < |ps| ensures IsOut(ps[j]) { assert ps[j] == ps[1..][j - 1]; }
    } else {
      var k := RemainingOneWitness(ps[1..]);
      i := k + 1;
      forall j | 0 <= j < |ps| && j != i ensures IsOut(ps[j]) {
        if j > 0 { assert ps[j] == ps[1..][j - 1]; }
      }
    }
  }

  /** `winner()`: there is a winner exactly when exactly one player still holds a live
      card, and the winner is that player. */
  lemma WinnerIsOnlyLive(g: GameState)
    requires g.turn <= |g.seats|
    ensures Winner(g).Some? <==> exists i: nat :: OnlyLive(Order(g), i)
    ensures forall i: nat :: OnlyLive(Order(g), i) ==> Winner(g) == Some(Order(g)[i].username)
  {
    var ps := Order(g);
    if |Remaining(ps)| == 1 {
      var i := RemainingOneWitness(ps);
    }
    forall i: nat | OnlyLive(ps, i) ensures Winner(g) == Some(ps[i].username) {
      RemainingOnly(ps, i);
    }
  }

  /** Two seatings with the same players in the same seats. */
  predicate SameNames(a: seq<Player>, b: seq<Player>) {
    && |a| == |b|
    && forall i :: 0 <= i < |a| ==> a[i].username == b[i].username
  }

  lemma SameNamesTrans(a: seq<Player>, b: seq<Player>, c: seq<Player>)
    requires SameNames(a, b) && SameNames(b, c)
    ensures SameNames(a, c)
  {
  }

  /** Lookups by name only see the names. */
  lemma SameNamesAgree(a: seq<Player>, b: seq<Player>)
    requires SameNames(a, b)
    ensures DistinctNames(a) <==> DistinctNames(b)
    ensures forall u :: Known(a, u) <==> Known(b, u)
    ensures forall u :: SeatOf(a, u) == SeatOf(b, u)
  {
    forall u
      ensures SeatOf(a, u) == SeatOf(b, u)
    {
      SeatOfCongruent(a, b, u);
    }
  }

  /** A change of hands, turn or deck that keeps the names, a live head and a live deck
      keeps the table consistent, outside an exchange. */
  lemma TableChangeKeepsConsistent(g: GameState, r: GameState)
    requires Consistent(g)
    requires SameNames(r.seats, g.seats)
    requires r.turn < |r.seats| && IsLive(r.seats[r.turn])
    requires forall c :: c in r.deck ==> !c.eliminated
    requires r.status == g.status && r.lastAction == g.lastAction && r.lastTarget == g.lastTarget
    requires r.challenger == g.challenger && r.blocker == g.blocker && r.blockedWith == g.blockedWith
    requires r.status != CardsTaken
    ensures Consistent(r)
  {
    SameNamesAgree(r.seats, g.seats);
  }

  /** Giving seat `p` a new hand that still holds a live card keeps the table
      consistent, outside an exchange. */
  lemma HandChangeKeepsConsistent(g: GameState, p: nat, hand: seq<Card>)
    requires Consistent(g) && g.status != CardsTaken && p < |g.seats| && LiveCount(hand) > 0
    ensures Consistent(g.(seats := g.seats[p := g.seats[p].(cards := hand)]))
  {
    var r := g.(seats := g.seats[p := g.seats[p].(cards := hand)]);
    assert SameNames(r.seats, g.seats);
    assert IsLive(r.seats[r.turn]) by {
      if r.turn != p {
        assert r.seats[r.turn] == g.seats[g.turn];
      }
    }
    TableChangeKeepsConsistent(g, r);
  }

  /** Moving to another stage of the same pending action keeps the table consistent
      when the new stage's record requirements hold. */
  lemma RestageKeepsConsistent(g: GameState, r: GameState)
    requires Consistent(g)
    requires r == g.(status := r.status, challenger := r.challenger, blocker := r.blocker, blockedWith := r.blockedWith)
    requires r.status != CardsTaken && (r.status == Ready <==> r.lastAction.None?)
    requires r.status.RecordsChallenger() ==> r.challenger.Some? && Known(r.seats, r.challenger.value)
    requires r.status.ContestsClaim() ==> r.lastAction.Some? && Claim(r.lastAction.value).Some?
    requires r.status.RecordsBlock() ==> r.blocker.Some? && Known(r.seats, r.blocker.value) && r.blockedWith.Some?
    requires r.status.RecordsBlock() ==> r.lastAction.Some? && Blockable(r.lastAction.value)
    ensures Consistent(r)
  {
  }

  /** Marking a pending action's cards as drawn keeps the table consistent once the
      actor holds at least three live cards. */
  lemma DrawnKeepsConsistent(h: GameState, r: GameState)
    requires Consistent(h) && h.lastAction.Some?
    requires !h.status.RecordsChallenger() && !h.status.RecordsBlock()
    requires r == h.(status := CardsTaken)
    requires LiveCount(r.seats[LastSeat(r)].cards) >= 3
    ensures Consistent(r)
  {
  }
}

=== FILE: wrappers.dfy ===
/** Option and Result, the failure-compatible wrappers the engine returns. */
module Wrappers {

  datatype Option<+T> = None | Some(value: T)

  /** An engine verb either yields the next game state or refuses with an error. */
  datatype Result<+T, +E> = Ok(value: T) | Err(error: E) {

    predicate IsFailure() {
      Err?
    }

    function PropagateFailure<U>(): Result<U, E>
      requires Err?
    {
      Err(error)
    }

    function Extract(): T
      requires Ok?
    {
      value
    }
  }
}
